=== FILE: README.md ===
# LargeArray and StandardConfiguration in Dafny

This project models two independent parts of the Atlas utilities library.

**`LargeArray<T>`** is an append-only container. It stores one logical
sequence, which may be longer than a single Java array can hold, across an
ordered list of fixed-capacity chunks (`PrimitiveArray<T>`). A global index
`i` is translated to chunk `i / subArraySize` at offset `i % subArraySize`.
`add` creates a missing chunk with `memoryBlockSize` slots. When the target
chunk is full, `add` doubles it, capped by `subArraySize` and by the room left
under `maximumSize`. `get` and `set` check bounds against the size. `trim`
shrinks the last chunk to `nextIndex % subArraySize` slots, which is the
number of elements it holds unless it is exactly full; a full last chunk is
shrunk to 0 slots (see the findings).

**`StandardConfiguration.resolve`** looks up a dotted key such as `a.b.c` in a
nested string-keyed table. It tries the longest dot-joined prefix first, then
shorter ones. A leaf hit is returned. A sub-table hit continues the lookup
with the remaining suffix. `StandardConfigurable.value()` transforms what
`resolve` found, or falls back to the transformed default.

The model is functional. A container is an immutable `LargeArray` value: a
sequence of chunks, where each chunk is a `seq<T>` whose length is its
capacity, plus `nextIndex` and the construction parameters. Every mutating
Java method becomes a function that returns either the new state or the
exception it would have thrown (`Result`). A failed call returns no new state,
so the caller keeps the old one.

Modules:

- `Wrappers`: `Option` and `Result`.
- `Chunks`: the chunk capability (`NewChunk`, `WithNewSize`, `Trimmed`).
- `ChunkIndex`: index translation and why it is a bijection.
- `LargeArrays`: the state and the operations.
  - `Valid` is the representation invariant. The size stays under the maximum.
    Chunks exist exactly for the chunk numbers touched so far. No chunk is
    longer than `subArraySize`. Every index below the size falls in a chunk
    with room for its offset.
  - `Contents` is the logical sequence the container represents.
- `LargeArrayProofs`: what each operation does to `Valid` and `Contents`.
- `LargeArrayIteration`: the iterator, a cursor that fixes its end bound when
  it is created.
- `LargeArrayTraces`: with the clipped `add` and the corrected trim, any
  sequence of calls acts on `Contents` exactly as the same calls act on a
  plain bounded list. The source's own `add` and `trim` do not always, as the
  findings show.
- `LargeArrayFindings`: concrete containers that show the source's quirks.
- `DottedKeys`: Java's `String.split("\\.")` and Guava's `Joiner.on(".")`.
- `StandardConfiguration`: `resolve`, its longest-prefix specification, and
  configurable values.
- `ConfigurationExamples`: worked lookups on a small table.

Where the code departs from what its own documentation promises, the model
follows the code:

- The constructor documents `subArraySize` as the maximum size of the
  sub-arrays (LargeArray.java:54-55), but a new chunk gets `memoryBlockSize`
  slots without clipping (LargeArray.java:84), so with
  `memoryBlockSize > subArraySize` chunks exceed that maximum. `Add` keeps the
  unclipped size. `AddClipped` is the clipped variant.
- `filledArraysSize()` sums every chunk except the last **two**
  (LargeArray.java:275). The model keeps this as written. In a valid container
  it equals `(chunks - 2) * subArraySize` (`FilledArraysSizeCounts`), so
  growth may reserve slots that the maximum size will never let anyone use
  (`GrowthOvershootsMaximum`). This only wastes memory. Every element stays
  readable.

## Model

| member | source | states |
|---|---|---|
| `LargeArrays.New` | src/main/java/org/openstreetmap/atlas/utilities/arrays/LargeArray.java:57-63 | a new container keeps the three parameters, is valid, and represents the empty sequence |
| `LargeArrays.NewWithDefaults` | src/main/java/org/openstreetmap/atlas/utilities/arrays/LargeArray.java:41-44 | the one-argument constructor uses 1024-slot initial chunks and `Integer.MAX_VALUE` as the sub-array size, and yields a valid empty container |
| `ChunkIndex.ArrayIndex` | src/main/java/org/openstreetmap/atlas/utilities/arrays/LargeArray.java:263-266 | the chunk number `k` of index `i` satisfies `k * subArraySize <= i < (k + 1) * subArraySize` |
| `ChunkIndex.IndexInside` | src/main/java/org/openstreetmap/atlas/utilities/arrays/LargeArray.java:282-285 | the offset is below `subArraySize`, and `ArrayIndex(i) * subArraySize + offset == i` |
| `ChunkIndex.Decompose` | src/main/java/org/openstreetmap/atlas/utilities/arrays/LargeArray.java:263-285 | translation is a bijection: any (chunk, offset) pair with the offset below `subArraySize` translates back from exactly the index it names |
| `Chunks.NewChunk` | src/main/java/org/openstreetmap/atlas/utilities/arrays/LargeArray.java:261 | a fresh chunk has the requested capacity and holds only blank values |
| `Chunks.WithNewSize` | src/main/java/org/openstreetmap/atlas/utilities/arrays/LargeArray.java:97 | a resized copy has the new capacity, keeps the first `min(old, new)` elements, and is blank beyond them |
| `Chunks.Trimmed` | src/main/java/org/openstreetmap/atlas/utilities/arrays/LargeArray.java:236 | a trimmed copy has exactly the requested capacity and keeps those leading elements |
| `LargeArrays.Size` | src/main/java/org/openstreetmap/atlas/utilities/arrays/LargeArray.java:182-185 | `size()` is the length of the represented sequence |
| `LargeArrays.IsEmpty` | src/main/java/org/openstreetmap/atlas/utilities/arrays/LargeArray.java:129-132 | `isEmpty()` holds iff `size()` is 0, iff the represented sequence is empty |
| `LargeArrays.GrownCapacity` | src/main/java/org/openstreetmap/atlas/utilities/arrays/LargeArray.java:89-93 | the growth capacity is the minimum of twice the old capacity, `subArraySize`, and `maximumSize - filledArraysSize()`, so it never exceeds `subArraySize` |
| `LargeArrays.AddWithInitial` | src/main/java/org/openstreetmap/atlas/utilities/arrays/LargeArray.java:73-101 | `add` fails with `ArrayFull` iff `nextIndex >= maximumSize`. On success the size grows by one, and a chunk is appended iff `chunks <= arrayIndex(nextIndex)`. No chunk other than the target changes, the target chunk does not shrink and keeps every element except at the written offset, and the new index holds the item |
| `LargeArrays.Add` | src/main/java/org/openstreetmap/atlas/utilities/arrays/LargeArray.java:73-101 | the source's `add`, with new chunks of `memoryBlockSize` slots, fails with `ArrayFull` exactly when the container is full. On success the size grows by one and the old size reads back the item |
| `LargeArrays.AddClipped` | src/main/java/org/openstreetmap/atlas/utilities/arrays/LargeArray.java:84 | `add` with new chunks clipped to `subArraySize`. It fails with `ArrayFull` exactly when full, and it equals the source's `add` whenever `memoryBlockSize <= subArraySize` |
| `LargeArrays.Get` | src/main/java/org/openstreetmap/atlas/utilities/arrays/LargeArray.java:112-119 | `get` fails with `OutOfBounds` iff `index >= size()`. Otherwise, when every index is stored, it returns that element of the represented sequence |
| `LargeArrays.Set` | src/main/java/org/openstreetmap/atlas/utilities/arrays/LargeArray.java:164-172 | `set` fails with `OutOfBounds` iff `index >= size()`, and succeeds on every stored index below the size. It changes neither the size nor any chunk capacity |
| `LargeArrays.LessFilled` | src/main/java/org/openstreetmap/atlas/utilities/arrays/LargeArray.java:234 | a fill `used / capacity` below a ratio of at most 1 implies `used < capacity`, so the trimmed copy is a true prefix |
| `LargeArrays.TrimLast` | src/main/java/org/openstreetmap/atlas/utilities/arrays/LargeArray.java:226-237 | with no chunks, nothing changes. Otherwise only the last chunk can change: it becomes its first `used` elements iff the fill is below the ratio, and the state is unchanged otherwise |
| `LargeArrays.TrimIfLessFilledThan` | src/main/java/org/openstreetmap/atlas/utilities/arrays/LargeArray.java:223-238 | the source's trim keeps the size and the number of chunks, leaves every chunk but the last untouched, and does nothing without chunks |
| `LargeArrays.Trim` | src/main/java/org/openstreetmap/atlas/utilities/arrays/LargeArray.java:211-214 | `trim()` keeps the size and the number of chunks |
| `LargeArrays.TrimIfLessFilledThanCorrected` | src/main/java/org/openstreetmap/atlas/utilities/arrays/LargeArray.java:223-238 | the corrected trim has the same frame as the source's trim: size, chunk count and every chunk but the last are kept |
| `LargeArrays.TrimCorrected` | src/main/java/org/openstreetmap/atlas/utilities/arrays/LargeArray.java:211-214 | the corrected `trim()` keeps the size and the number of chunks |
| `LargeArrays.FilledArraysSize` | src/main/java/org/openstreetmap/atlas/utilities/arrays/LargeArray.java:268-280 | `filledArraysSize()` is 0 with at most one chunk. Otherwise it is the capacity of all chunks but the last minus that of the second-to-last, so exactly the last two chunks are left out |
| `LargeArrayProofs.FilledArraysSizeCounts` | src/main/java/org/openstreetmap/atlas/utilities/arrays/LargeArray.java:268-280 | `filledArraysSize()` is 0 with at most one chunk. Otherwise, in a valid container, it is `(chunks - 2) * subArraySize`: the elements of every chunk except the last two |
| `LargeArrayProofs.AddTargetChunk` | src/main/java/org/openstreetmap/atlas/utilities/arrays/LargeArray.java:81-98 | in a valid container, with initial capacity in [1, `subArraySize`], an `add` below the maximum succeeds. Its target chunk stays within `subArraySize` and keeps every element except at the written offset |
| `LargeArrayProofs.AddPreservesValid` | src/main/java/org/openstreetmap/atlas/utilities/arrays/LargeArray.java:73-101 | with initial capacity in [1, `subArraySize`], `add` on a valid container succeeds iff it is below the maximum. The result is valid and represents the old sequence with the item appended |
| `LargeArrayProofs.AddKeepsCovers` | src/main/java/org/openstreetmap/atlas/utilities/arrays/LargeArray.java:79-100 | for any initial capacity and any chunk sizes, a successful `add` keeps every index below the size stored and represents the old sequence with the item appended |
| `LargeArrayProofs.AddAppends` | src/main/java/org/openstreetmap/atlas/utilities/arrays/LargeArray.java:73-119 | a successful source `add` makes the size grow by exactly one and `get(oldSize)` return the item, and leaves every `get(i)` with `i < oldSize` unchanged, whatever `memoryBlockSize` is. With `1 <= memoryBlockSize <= subArraySize` a valid container also fails only when full and stays valid |
| `LargeArrayProofs.AddKeepsRoomy` | src/main/java/org/openstreetmap/atlas/utilities/arrays/LargeArray.java:79-100 | with `memoryBlockSize >= subArraySize`, `add` on a container whose chunks all have at least `subArraySize` slots succeeds iff it is below the maximum, leaves the capacity of every existing chunk unchanged, keeps that shape, and appends the item |
| `LargeArrayProofs.AddClippedAppends` | src/main/java/org/openstreetmap/atlas/utilities/arrays/LargeArray.java:84 | with clipped new chunks, `add` keeps the invariant and appends the item for every `memoryBlockSize >= 1` |
| `LargeArrayProofs.AddGrowth` | src/main/java/org/openstreetmap/atlas/utilities/arrays/LargeArray.java:86-97 | when the target chunk exists and is full, a successful `add` resizes it to `GrownCapacity`. That capacity exceeds the write offset and is at most `subArraySize` |
| `LargeArrayProofs.AddNoGrowth` | src/main/java/org/openstreetmap/atlas/utilities/arrays/LargeArray.java:86 | a target chunk with room is written in place, and its capacity does not change |
| `LargeArrayProofs.SetUpdates` | src/main/java/org/openstreetmap/atlas/utilities/arrays/LargeArray.java:164-172 | on any container whose indices below the size are all stored, whatever `memoryBlockSize` is, `set` below the size succeeds. The represented sequence is updated at that index only: `get` there returns the item and every other `get` is unchanged. A valid container stays valid, and a roomy one stays roomy |
| `LargeArrayProofs.TrimLastKeepsContents` | src/main/java/org/openstreetmap/atlas/utilities/arrays/LargeArray.java:230-237 | in any tiled container (valid, or roomy with `memoryBlockSize > subArraySize`), trimming the last chunk to at least the number of elements it holds keeps every element stored and the represented sequence unchanged |
| `LargeArrayProofs.TrimLastPreserves` | src/main/java/org/openstreetmap/atlas/utilities/arrays/LargeArray.java:236 | trimming the last chunk to at least the number of elements it holds keeps the invariant and the represented sequence |
| `LargeArrayProofs.TrimIfLessFilledThanPreserves` | src/main/java/org/openstreetmap/atlas/utilities/arrays/LargeArray.java:226-237 | the source's trim keeps the invariant and every element whenever the size is not a multiple of `subArraySize` |
| `LargeArrayProofs.TrimIfLessFilledThanKeepsContents` | src/main/java/org/openstreetmap/atlas/utilities/arrays/LargeArray.java:226-237 | in any tiled container, including roomy ones built with `memoryBlockSize > subArraySize`, the source's trim keeps every element whenever the size is not a multiple of `subArraySize` |
| `LargeArrayProofs.TrimLosesFullLastChunk` | src/main/java/org/openstreetmap/atlas/utilities/arrays/LargeArray.java:233 | in any tiled container (valid or roomy), when the size is a positive multiple of `subArraySize`, the source's `trim()` shrinks the full last chunk to capacity 0. After that, `get(size - 1)`, which succeeded before, fails |
| `LargeArrayProofs.TrimIfLessFilledThanCorrectedPreserves` | src/main/java/org/openstreetmap/atlas/utilities/arrays/LargeArray.java:223-238 | the corrected trim keeps the invariant and every element in every valid container |
| `LargeArrayProofs.TrimCorrectedFits` | src/main/java/org/openstreetmap/atlas/utilities/arrays/LargeArray.java:211-214 | the corrected trim replaces the last chunk iff its fill is below the ratio. `trim()` leaves the last chunk's capacity equal to the number of elements it holds |
| `LargeArrayProofs.TrimFits` | src/main/java/org/openstreetmap/atlas/utilities/arrays/LargeArray.java:211-214 | when the size is not a multiple of `subArraySize`, the source's `trim()` leaves the last chunk exactly as long as `indexInside(size)` |
| `LargeArrayIteration.Iterator` | src/main/java/org/openstreetmap/atlas/utilities/arrays/LargeArray.java:134-140 | a new iterator starts at index 0 and fixes its end bound at the length of the represented sequence |
| `LargeArrayIteration.IteratorHasNext` | src/main/java/org/openstreetmap/atlas/utilities/arrays/LargeArray.java:143-146 | `hasNext()` of an iterator advanced `k` times holds iff `k` is below the size at the iterator's creation, and then `next()` returns the `k`-th element of the represented sequence. `HasNext` itself is this comparison |
| `LargeArrayIteration.Next` | src/main/java/org/openstreetmap/atlas/utilities/arrays/LargeArray.java:148-152 | `next()` advances the cursor by one. Below the size it reads that element of the sequence; at or beyond the size it fails with `OutOfBounds` |
| `LargeArrayIteration.Drain` | src/main/java/org/openstreetmap/atlas/utilities/arrays/LargeArray.java:142-152 | draining a cursor whose bound is within the size yields exactly the elements from its index up to its bound, in order. A bound beyond the size makes some step fail |
| `LargeArrayIteration.Elements` | src/main/java/org/openstreetmap/atlas/utilities/arrays/LargeArray.java:134-154 | iterating a container yields its whole represented sequence, in order |
| `LargeArrayIteration.EarlierIteratorUnaffected` | src/main/java/org/openstreetmap/atlas/utilities/arrays/LargeArray.java:139 | after any successful `add`, an iterator created before it still ends at the old size and sees the same elements. A new iterator sees one more element |
| `LargeArrayTraces.RunRefines` | src/main/java/org/openstreetmap/atlas/utilities/arrays/LargeArray.java:73-238 | any sequence of appends, overwrites and corrected trims keeps a valid container valid. It changes the represented sequence exactly as the same calls change a plain list bounded by `maximumSize` |
| `LargeArrayTraces.AppendAllRecords` | src/main/java/org/openstreetmap/atlas/utilities/arrays/LargeArray.java:73-101 | for any `memoryBlockSize >= 1`, appending items that fit under the maximum all succeed, and the represented sequence becomes the old one followed by the items |
| `LargeArrayTraces.AppendedOne` | src/main/java/org/openstreetmap/atlas/utilities/arrays/LargeArray.java:73-101 | for any `memoryBlockSize >= 1`, one `add` below the maximum size succeeds, keeps the settings and the invariant matching `memoryBlockSize`, and appends the item to the represented sequence |
| `LargeArrayTraces.FillFromEmpty` | src/main/java/org/openstreetmap/atlas/utilities/arrays/LargeArray.java:73-119 | from an empty container with any `memoryBlockSize >= 1`, `n <= maximumSize` appends give size `n` and each index reads back its item. At the maximum, one more `add` fails with `ArrayFull` |
| `LargeArrayTraces.FullRejects` | src/main/java/org/openstreetmap/atlas/utilities/arrays/LargeArray.java:75-78 | `add` on a container at its maximum fails with `ArrayFull` |
| `LargeArrayFindings.AddInPlace` | src/main/java/org/openstreetmap/atlas/utilities/arrays/LargeArray.java:86-100 | `add` into an existing chunk with room writes the item at the translated offset and increments the size |
| `LargeArrayFindings.AddOpensChunk` | src/main/java/org/openstreetmap/atlas/utilities/arrays/LargeArray.java:81-100 | `add` at offset 0 of a missing chunk appends a `memoryBlockSize`-slot chunk that holds the item first |
| `LargeArrayFindings.UnclippedChunkBreaksAdd` | src/main/java/org/openstreetmap/atlas/utilities/arrays/LargeArray.java:84 | with maximum 6, `memoryBlockSize` 10 and `subArraySize` 2, five appends and a `trim()` leave size 5. The next `add` then fails, because growth asks for a negative capacity |
| `LargeArrayFindings.FirstThreeAdds` | src/main/java/org/openstreetmap/atlas/utilities/arrays/LargeArray.java:73-87 | the first three appends of that container open two 10-slot chunks, because new chunks are not clipped to `subArraySize` |
| `LargeArrayFindings.GrowthOvershootsMaximum` | src/main/java/org/openstreetmap/atlas/utilities/arrays/LargeArray.java:275 | take a valid container with maximum 11 and chunk capacities 4, 4, 2 holding 10 elements. The next `add` grows the last chunk to 4, for a total capacity of 12 |
| `LargeArrayFindings.WrapInt` | src/main/java/org/openstreetmap/atlas/utilities/arrays/LargeArray.java:89 | Java `int` arithmetic: the result lies in [-2^31, 2^31), is congruent to the exact value modulo 2^32, and equals it when it fits |
| `LargeArrayFindings.GrownCapacityAsWritten` | src/main/java/org/openstreetmap/atlas/utilities/arrays/LargeArray.java:89-93 | the growth capacity with `2 * old.size()` wrapped to `int`: the minimum of the wrapped doubling, `subArraySize` and the room left, equal to the model's `GrownCapacity` below 2^30 slots |
| `LargeArrayFindings.DefaultGrowthOverflows` | src/main/java/org/openstreetmap/atlas/utilities/arrays/LargeArray.java:86-97 | with the one-argument constructor (LargeArray.java:41-44) and `maximumSize` above 2^30, the valid container whose one chunk holds 2^30 elements must grow that chunk on the next `add`, and the source computes its new capacity as `Integer.MIN_VALUE` |
| `LargeArrayFindings.DefaultGrowthFits` | src/main/java/org/openstreetmap/atlas/utilities/arrays/LargeArray.java:86-100 | in the same container the growth computed without wrap-around exceeds the offset, so the `add` succeeds and `get(2^30)` returns the item |
| `DottedKeys.Split` | src/main/java/org/openstreetmap/atlas/utilities/configuration/StandardConfiguration.java:141 | `key.split("\\.")` with limit 0: a key without a dot is its only segment, otherwise the segments between dots without the trailing empty ones. It has no contract of its own; `SplitShape`, `SplitNoDot` and `SplitJoin` state what it returns |
| `DottedKeys.SplitShape` | src/main/java/org/openstreetmap/atlas/utilities/configuration/StandardConfiguration.java:141 | `key.split("\\.")`: a key without a dot is its own only segment, and a key with a dot never yields a trailing empty segment |
| `DottedKeys.SplitNoDot` | src/main/java/org/openstreetmap/atlas/utilities/configuration/StandardConfiguration.java:141 | no segment of `key.split("\\.")` contains a dot |
| `DottedKeys.SplitAllNoDot` | src/main/java/org/openstreetmap/atlas/utilities/configuration/StandardConfiguration.java:141 | no segment of the split at every dot contains a dot |
| `DottedKeys.DropTrailingEmpty` | src/main/java/org/openstreetmap/atlas/utilities/configuration/StandardConfiguration.java:141 | the kept segments are a prefix that does not end in an empty segment, and every dropped segment is empty |
| `DottedKeys.Join` | src/main/java/org/openstreetmap/atlas/utilities/configuration/StandardConfiguration.java:145-149 | `Joiner.on(".").join(parts)`. It has no contract of its own; `JoinShape`, `JoinAppend` and `JoinSplitAll` state what it returns |
| `DottedKeys.JoinShape` | src/main/java/org/openstreetmap/atlas/utilities/configuration/StandardConfiguration.java:145-149 | `Joiner.on(".").join(parts)` starts with the first segment, and its length is at least the number of segments minus one, because a dot separates every two segments |
| `DottedKeys.JoinAppend` | src/main/java/org/openstreetmap/atlas/utilities/configuration/StandardConfiguration.java:145-149 | joining two non-empty runs of segments gives the two joined runs with one dot between them |
| `DottedKeys.JoinSplitAll` | src/main/java/org/openstreetmap/atlas/utilities/configuration/StandardConfiguration.java:141-145 | splitting at every dot and joining with dots gives back the key |
| `DottedKeys.SplitJoin` | src/main/java/org/openstreetmap/atlas/utilities/configuration/StandardConfiguration.java:141-145 | joining the segments of `split` gives back the key minus a run of trailing dots |
| `DottedKeys.SuffixShorter` | src/main/java/org/openstreetmap/atlas/utilities/configuration/StandardConfiguration.java:141-150 | the suffix passed to a recursive `resolve` is strictly shorter than the key, so resolution terminates |
| `StandardConfiguration.Resolve` | src/main/java/org/openstreetmap/atlas/utilities/configuration/StandardConfiguration.java:135-140 | an empty key resolves to the current table itself |
| `StandardConfiguration.ScanHit` | src/main/java/org/openstreetmap/atlas/utilities/configuration/StandardConfiguration.java:145-155 | one loop pass whose candidate, made of the first `i` segments, is present: a sub-table is searched with the joined remaining segments, and a leaf is returned |
| `StandardConfiguration.ScanMiss` | src/main/java/org/openstreetmap/atlas/utilities/configuration/StandardConfiguration.java:145-156 | one loop pass whose candidate is absent: the last root segment moves to the front of the suffix, and the result is that of the candidate made of the first `i - 1` segments |
| `StandardConfiguration.Scan` | src/main/java/org/openstreetmap/atlas/utilities/configuration/StandardConfiguration.java:143-157 | the `while` loop of `resolve` over the candidate segments `root` and the suffix `child`. It has no contract of its own; `ScanHit`, `ScanMiss` and `ScanLongestPrefix` state what it returns |
| `StandardConfiguration.ScanLongestPrefix` | src/main/java/org/openstreetmap/atlas/utilities/configuration/StandardConfiguration.java:141-158 | the loop over the first `i` segments returns nothing if no candidate is present, and otherwise the hit for the longest present candidate |
| `StandardConfiguration.ResolveLongestPrefix` | src/main/java/org/openstreetmap/atlas/utilities/configuration/StandardConfiguration.java:135-159 | a non-empty key resolves through the longest present prefix. A leaf is returned. A sub-table is searched with the remaining suffix, with no fallback to shorter prefixes even when that search finds nothing. No present prefix gives nothing |
| `StandardConfiguration.WholeKeySubTable` | src/main/java/org/openstreetmap/atlas/utilities/configuration/StandardConfiguration.java:147-151 | a key whose whole dotted form names a sub-table resolves to that sub-table, because the suffix is empty |
| `StandardConfiguration.NewConfigurable` | src/main/java/org/openstreetmap/atlas/utilities/configuration/StandardConfiguration.java:45-51 | the constructor applies the transform to the default once, and a missing default stays missing |
| `StandardConfiguration.Value` | src/main/java/org/openstreetmap/atlas/utilities/configuration/StandardConfiguration.java:55-69 | `value()` returns the transformed resolved value when the key resolves and the transform yields non-null. Otherwise it returns the transformed default |
| `StandardConfiguration.ValueOfLongestLeaf` | src/main/java/org/openstreetmap/atlas/utilities/configuration/StandardConfiguration.java:55-69 | when the longest candidate prefix of the key present in the table is a leaf, `value()` is the transformed leaf, or the transformed default when the transform yields nothing |
| `StandardConfiguration.IdentityValue` | src/main/java/org/openstreetmap/atlas/utilities/configuration/StandardConfiguration.java:102-119 | the untyped `get(key)` and `get(key, default)` read the resolved value, or the default (if any) when the key does not resolve |
| `ConfigurationExamples.SplitTwo` | src/main/java/org/openstreetmap/atlas/utilities/configuration/StandardConfiguration.java:141 | `x.y` splits into the segments `x` and `y` |
| `ConfigurationExamples.LongestCandidateWins` | src/main/java/org/openstreetmap/atlas/utilities/configuration/StandardConfiguration.java:141-155 | with a flat `a.b` entry beside a nested `a` table, `a.b` finds the flat entry |
| `ConfigurationExamples.NoFallback` | src/main/java/org/openstreetmap/atlas/utilities/configuration/StandardConfiguration.java:141-158 | in the same table `a.c` descends into `a`, misses there, and finds nothing without trying shorter candidates |
| `ConfigurationExamples.PrefixNamesTable` | src/main/java/org/openstreetmap/atlas/utilities/configuration/StandardConfiguration.java:141-150 | in the same table `a` finds the nested table itself |

## Left out

- Logging: the resize warning and trim trace in `LargeArray`, and the error log in `value()`. They only observe.
- `toString`, `getName`, `setName`, `withName`, `getArrays`, serialization, and the configuration's `toString`. They are metadata, debug rendering and test hooks.
- `PrimitiveArray` and `getNewArray`: their implementation is not part of this model. A chunk is a `seq<T>`. Fresh and grown slots hold the `blank` value stored in the container.
- `Ratio` is not part of this model. A ratio is a fraction `num/den` in [0, 1], and `Ratio.MAXIMUM` is `1/1`. The `double` division at LargeArray.java:234 becomes a cross-multiplied comparison. A last chunk of capacity 0 gives a NaN in Java, and the model treats that as "not less filled".
- `GrownCapacity`: computes `2 * old.size()` without `int` wrap-around. The source wraps once a chunk reaches 2^30 slots, so a container from the one-argument constructor holds at most 2^30 elements, against the class documentation at LargeArray.java:14 (see the findings). The operations use the unwrapped value, so `AddAppends` lets such a container reach `maximumSize`.
- Other Java `int` and `long` overflow: the narrowing cast in `arrayIndex`, which wraps once `index / subArraySize` exceeds `Integer.MAX_VALUE` (the cast in `indexInside` cannot wrap, since the remainder is smaller than `subArraySize`), and the `(int)` cast of the room left in `add`. All integers are unbounded.
- A `subArraySize` below 1 is excluded by the `Settings` type. With 0, every `add` below the maximum throws `ArithmeticException`. A negative value gives, through Java's truncating division, a one-chunk container. It holds at most `min(memoryBlockSize, |subArraySize|)` elements, because the first growth asks for `min(2 * old.size(), subArraySize) < 0` slots (LargeArray.java:89) and index `|subArraySize|` maps to chunk -1. `get` and `set` below that size succeed.
- Every Java runtime exception from the chunk list or a chunk is one error, `BackingFailure`. That covers a negative capacity, an offset past the capacity, and a negative index passed to `get` or `set`.
- A failing `add` may already have appended or replaced a chunk in Java before it throws. The model returns no state on failure. Inside `Valid`, with `1 <= memoryBlockSize <= subArraySize`, the only failure is `ArrayFull`, which happens before any change.
- `Add`: validity is proved only for `1 <= memoryBlockSize <= subArraySize`, and `AddKeepsRoomy` covers `memoryBlockSize >= subArraySize` from a container whose chunks all have at least `subArraySize` slots. The append itself (`AddKeepsCovers`, `AddAppends`) holds for every successful `add`. With `memoryBlockSize` 0, doubling a 0-slot chunk stays 0 and the write throws. A trimmed container with `memoryBlockSize > subArraySize` can fail, as the findings show.
- `TrimIfLessFilledThan`: element preservation is proved only when the size is not a positive multiple of `subArraySize`, because the source loses data otherwise (see the findings).
- Concurrency: the container is single-threaded, and the model has no interleavings.
- The `StandardConfiguration(Resource)` constructor, which parses JSON with Jackson. That is I/O and a foreign library. A `Configuration` holds the already-parsed table.
- The configuration's values are modelled as `Leaf(string)` or `Node(map)`. Numbers, booleans and lists are represented as opaque leaves. A key mapped to JSON null is treated as absent, which is how `resolve` treats it.
- The `ClassCastException` handling in `value()` and the generic `Raw`/`Transformed` typing. The transform is a total function `Val -> Option<T>`, where `None` stands for a `null` result, which falls back to the default through `Optional.map`.
- `valueOption()` is `Optional.ofNullable(value())`. The `Option` result of `Value` is that same value.

## Findings

| source | as written | input that shows it | evidently intended | confidence | as-written member | corrected member |
|---|---|---|---|---|---|---|
| src/main/java/org/openstreetmap/atlas/utilities/arrays/LargeArray.java:233 | the number of elements in the last chunk is taken as `nextIndex % subArraySize`, which is 0 when the last chunk is exactly full | `new LargeArray(10, 2, 2)`, `add(7)`, `add(8)`, `trim()`, then `get(1)` throws, although the size is 2 | the count of elements in the last chunk, `(nextIndex - 1) % subArraySize + 1`, which is `subArraySize` for a full chunk | not executed; high, because the comment at line 232 says `nextIndex` is meant as a size | `LargeArrayProofs.TrimLosesFullLastChunk` | `LargeArrayProofs.TrimIfLessFilledThanCorrectedPreserves` |
| src/main/java/org/openstreetmap/atlas/utilities/arrays/LargeArray.java:84 | a new chunk gets `memoryBlockSize` slots even when that exceeds `subArraySize`; the growth cap then subtracts these oversized chunks and can go negative | `new LargeArray(6, 10, 2)`, five `add`s, `trim()`, then the sixth `add` throws, although the size is 5 and the maximum is 6 | a new chunk of `min(memoryBlockSize, subArraySize)` slots | not executed; medium, because the input needs `memoryBlockSize > subArraySize` and a trim | `LargeArrayFindings.UnclippedChunkBreaksAdd` | `LargeArrayProofs.AddClippedAppends` |
| src/main/java/org/openstreetmap/atlas/utilities/arrays/LargeArray.java:89 | `2 * old.size()` is evaluated in `int`, so doubling a chunk of 2^30 or more slots wraps to a negative number | `new LargeArray(maximumSize)` with `maximumSize` above 2^30: chunk 0 doubles from 1024 to 2^30 slots, and the append of element 2^30 + 1 computes a new capacity of `Integer.MIN_VALUE`, so `withNewSize` throws | the doubling computed without wrap-around, capped by `subArraySize`, so the container holds more than `Integer.MAX_VALUE` items as the class documentation at line 14 promises | not executed; high, because the default `subArraySize` is `Integer.MAX_VALUE` and only `maximumSize` above 2^30 is needed | `LargeArrayFindings.DefaultGrowthOverflows` | `LargeArrayFindings.DefaultGrowthFits` |

The trace model (`LargeArrayTraces.Step`, `Run` and `RunRefines`) uses the
corrected operations, `AddClipped` and `TrimIfLessFilledThanCorrected`. When
`memoryBlockSize <= subArraySize`, `AddClipped` and the source's `add` are the
same function. Every operation of the model computes growth without `int`
wrap-around.

=== FILE: chunk_index.dfy ===
/**
 * Translation of a global index into (chunk ordinal, offset inside the chunk).
 * The divisor is always the sub-array size, whatever a chunk's actual capacity.
 */
module ChunkIndex {

  /** `arrayIndex(index)`: the ordinal of the chunk holding `index`. */
  function ArrayIndex(i: nat, subArraySize: nat): (k: nat)
    requires subArraySize >= 1
    ensures k * subArraySize <= i < (k + 1) * subArraySize
  {
    i / subArraySize
  }

  /** `indexInside(index)`: the offset of `index` inside its chunk. */
  function IndexInside(i: nat, subArraySize: nat): (o: nat)
    requires subArraySize >= 1
    ensures o < subArraySize
    ensures ArrayIndex(i, subArraySize) * subArraySize + o == i
  {
    i % subArraySize
  }

  /**
   * Index translation is a bijection: a (chunk, offset) pair with the offset
   * below the divisor names exactly one index, the one it translates back to.
   */
  lemma Decompose(i: nat, s: nat, k: nat, o: nat)
    requires s >= 1 && o < s && k * s + o == i
    ensures ArrayIndex(i, s) == k && IndexInside(i, s) == o
  {
    var k' := ArrayIndex(i, s);
    StepBelow(k', k, s);
    StepBelow(k, k', s);
  }

  lemma StepBelow(a: nat, b: nat, s: nat)
    ensures a < b ==> (a + 1) * s <= b * s
  {
    if a < b {
      MulMonotone(a + 1, b, s);
    }
  }

  lemma MulMonotone(a: nat, b: nat, s: nat)
    requires a <= b
    ensures a * s <= b * s
  {
  }

  /** Moving from index `i` to `i + 1` either stays in the chunk or starts the next one at offset 0. */
  lemma Successor(i: nat, s: nat)
    requires s >= 1
    ensures
      || (IndexInside(i, s) + 1 < s && ArrayIndex(i + 1, s) == ArrayIndex(i, s)
          && IndexInside(i + 1, s) == IndexInside(i, s) + 1)
      || (IndexInside(i, s) + 1 == s && ArrayIndex(i + 1, s) == ArrayIndex(i, s) + 1
          && IndexInside(i + 1, s) == 0)
  {
    var k := ArrayIndex(i, s);
    var o := IndexInside(i, s);
    if o + 1 < s {
      Decompose(i + 1, s, k, o + 1);
    } else {
      assert (k + 1) * s + 0 == i + 1;
      Decompose(i + 1, s, k + 1, 0);
    }
  }

  /** Two indices in the same chunk with the same offset are equal. */
  lemma Injective(i: nat, j: nat, s: nat)
    requires s >= 1
    requires ArrayIndex(i, s) == ArrayIndex(j, s) && IndexInside(i, s) == IndexInside(j, s)
    ensures i == j
  {
  }

  /** Indices in chunks below `k` are smaller than `k * s`. */
  lemma OrdinalOrder(i: nat, s: nat, k: nat)
    requires s >= 1
    ensures ArrayIndex(i, s) < k <==> i < k * s
  {
    var q := ArrayIndex(i, s);
    if q < k {
      MulMonotone(q + 1, k, s);
    } else {
      MulMonotone(k, q, s);
    }
  }
}

=== FILE: chunks.dfy ===
/**
 * The backing chunk capability (a fixed-capacity `PrimitiveArray<T>` in the
 * source). A chunk is modelled as a sequence whose length is its capacity;
 * unused slots hold the chunk type's blank value.
 */
module Chunks {

  /** A freshly allocated chunk: `capacity` blank slots. */
  function NewChunk<T>(capacity: nat, blank: T): (c: seq<T>)
    ensures |c| == capacity
    ensures forall i :: 0 <= i < |c| ==> c[i] == blank
  {
    seq(capacity, _ => blank)
  }

  /**
   * `withNewSize(n)`: a copy of capacity `n` that keeps the first
   * `min(|c|, n)` elements and pads with blanks.
   */
  function WithNewSize<T>(c: seq<T>, n: nat, blank: T): (r: seq<T>)
    ensures |r| == n
    ensures forall i :: 0 <= i < |c| && i < n ==> r[i] == c[i]
    ensures forall i :: |c| <= i < n ==> r[i] == blank
  {
    if n <= |c| then c[..n] else c + NewChunk(n - |c|, blank)
  }

  /** `trimmed(n)`: a copy of capacity exactly `n` holding the first `n` elements. */
  function Trimmed<T>(c: seq<T>, n: nat): (r: seq<T>)
    requires n <= |c|
    ensures |r| == n
    ensures forall i :: 0 <= i < n ==> r[i] == c[i]
  {
    c[..n]
  }
}

=== FILE: configuration_examples.dfy ===
/** Worked lookups over a small configuration tree. */
module ConfigurationExamples {
  import opened Wrappers
  import opened DottedKeys
  import opened StandardConfiguration

  /** A two-segment key `x.y` splits into its two one-letter segments. */
  lemma SplitTwo(x: char, y: char)
    requires x != '.' && y != '.'
    ensures Split([x, '.', y]) == [[x], [y]]
  {
    assert [x, '.', y][1..] == ['.', y];
    assert ['.', y][1..] == [y];
    assert [y][1..] == [];
    assert SplitAll([]) == [""];
    assert [y] + "" == [y];
    assert SplitAll([y]) == [[y]];
    assert SplitAll(['.', y]) == ["", [y]];
    assert [x] + "" == [x];
    assert SplitAll([x, '.', y]) == [[x], [y]];
  }

  /** A one-letter key without a dot is its own only segment. */
  lemma SplitOne(x: char)
    requires x != '.'
    ensures Split([x]) == [[x]]
  {
  }

  /** The table used by the lookups below: a flat `a.b` entry beside a nested `a` table. */
  function Sample(): map<string, Val>
  {
    map["a.b" := Leaf("1"), "a" := Node(map["b" := Leaf("2")])]
  }

  /** `a.b` resolves to the flat entry: the longest candidate wins. */
  lemma LongestCandidateWins()
    ensures Resolve("a.b", Sample()) == Some(Leaf("1"))
  {
    SplitTwo('a', 'b');
    assert "a.b" == ['a', '.', 'b'];
    assert Join(["a", "b"]) == "a.b";
    ResolveLongestPrefix("a.b", Sample());
    assert Prefix("a.b", 2) == "a.b";
  }

  /**
   * `a.c` descends into the `a` table, misses there, and resolves to nothing
   * without falling back to a shorter candidate.
   */
  lemma NoFallback()
    ensures Resolve("a.c", Sample()) == None
  {
    var inner := map["b" := Leaf("2")];
    SplitTwo('a', 'c');
    SplitOne('a');
    SplitOne('c');
    assert "a.c" == ['a', '.', 'c'];
    assert Join(["a", "c"]) == "a.c";
    assert Join(["a"]) == "a";
    assert Join(["c"]) == "c";
    ResolveLongestPrefix("a.c", Sample());
    assert Prefix("a.c", 2) == "a.c";
    assert Prefix("a.c", 1) == "a";
    assert Suffix("a.c", 1) == "c";
    ResolveLongestPrefix("c", inner);
    assert Prefix("c", 1) == "c";
  }

  /** `a` resolves to the nested table itself. */
  lemma PrefixNamesTable()
    ensures Resolve("a", Sample()) == Some(Node(map["b" := Leaf("2")]))
  {
    SplitOne('a');
    assert Join(["a"]) == "a";
    ResolveLongestPrefix("a", Sample());
    assert Prefix("a", 1) == "a";
  }
}

=== FILE: dotted_keys.dfy ===
/**
 * Dotted configuration keys: Java's `String.split("\\.")` (which drops
 * trailing empty segments) and Guava's `Joiner.on(".").join`.
 */
module DottedKeys {

  /** Split on every '.', keeping every segment, empty ones included. */
  function SplitAll(s: string): (parts: seq<string>)
    ensures |parts| >= 1
    decreases |s|
  {
    if s == [] then [""]
    else
      var rest := SplitAll(s[1..]);
      if s[0] == '.' then [""] + rest
      else [[s[0]] + rest[0]] + rest[1..]
  }

  /** Drops the trailing empty segments. */
  function DropTrailingEmpty(parts: seq<string>): (r: seq<string>)
    ensures |r| <= |parts| && r == parts[..|r|]
    ensures r != [] ==> r[|r| - 1] != ""
    ensures forall i :: |r| <= i < |parts| ==> parts[i] == ""
    decreases |parts|
  {
    if parts != [] && parts[|parts| - 1] == "" then DropTrailingEmpty(parts[..|parts| - 1]) else parts
  }

  /**
   * `key.split("\\.")`: a key without a dot is its own only segment (even the
   * empty key); otherwise the dot-separated segments without the trailing
   * empty ones.
   */
  function Split(s: string): seq<string> {
    if '.' !in s then [s] else DropTrailingEmpty(SplitAll(s))
  }

  /** No segment produced by splitting at every dot contains a dot. */
  lemma {:induction false} SplitAllNoDot(s: string)
    ensures forall i :: 0 <= i < |SplitAll(s)| ==> '.' !in SplitAll(s)[i]
    decreases |s|
  {
    if s != [] {
      SplitAllNoDot(s[1..]);
      var rest := SplitAll(s[1..]);
      if s[0] != '.' {
        assert '.' !in [s[0]] + rest[0];
      }
    }
  }

  /** No segment of `key.split("\\.")` contains a dot. */
  lemma SplitNoDot(s: string)
    ensures forall i :: 0 <= i < |Split(s)| ==> '.' !in Split(s)[i]
  {
    if '.' in s {
      SplitAllNoDot(s);
    }
  }

  /**
   * The shape of `key.split("\\.")`: a key without a dot is its own only
   * segment, and a key with a dot never yields a trailing empty segment.
   */
  lemma SplitShape(s: string)
    ensures '.' !in s ==> Split(s) == [s]
    ensures '.' in s && Split(s) != [] ==> Split(s)[|Split(s)| - 1] != ""
  {
  }

  /** `Joiner.on(".").join(parts)`. */
  function Join(parts: seq<string>): string
    decreases |parts|
  {
    if parts == [] then ""
    else if |parts| == 1 then parts[0]
    else parts[0] + "." + Join(parts[1..])
  }

  /**
   * The joined string starts with the first segment, and a dot between every
   * two segments makes it at least one character shorter than the segments
   * are many.
   */
  lemma {:induction false} JoinShape(parts: seq<string>)
    ensures |Join(parts)| + 1 >= |parts|
    ensures parts != [] ==> |parts[0]| <= |Join(parts)| && Join(parts)[..|parts[0]|] == parts[0]
    decreases |parts|
  {
    if |parts| > 1 {
      JoinShape(parts[1..]);
    }
  }

  /** Joining two non-empty runs of segments puts one dot between them. */
  lemma {:induction false} JoinAppend(r: seq<string>, c: seq<string>)
    requires r != [] && c != []
    ensures Join(r + c) == Join(r) + "." + Join(c)
    decreases |r|
  {
    if |r| == 1 {
      assert r + c == [r[0]] + c;
    } else {
      assert (r + c)[1..] == r[1..] + c;
      JoinAppend(r[1..], c);
    }
  }

  /** Splitting at every dot and joining back gives the string itself. */
  lemma {:induction false} JoinSplitAll(s: string)
    ensures Join(SplitAll(s)) == s
    decreases |s|
  {
    if s != [] {
      var rest := SplitAll(s[1..]);
      JoinSplitAll(s[1..]);
      if s[0] == '.' {
        JoinAppend([""], rest);
      } else if |rest| == 1 {
        assert s == [s[0]] + s[1..];
      } else {
        assert Join(rest) == rest[0] + "." + Join(rest[1..]);
        assert s == [s[0]] + s[1..];
      }
    }
  }

  /** Dropping trailing empty segments removes a run of trailing dots from the joined string. */
  lemma {:induction false} JoinDropTrailingEmpty(parts: seq<string>)
    ensures
      var j := Join(DropTrailingEmpty(parts));
      && |j| <= |Join(parts)| && j == Join(parts)[..|j|]
      && forall i :: |j| <= i < |Join(parts)| ==> Join(parts)[i] == '.'
    decreases |parts|
  {
    if parts != [] && parts[|parts| - 1] == "" {
      var init := parts[..|parts| - 1];
      JoinDropTrailingEmpty(init);
      assert DropTrailingEmpty(parts) == DropTrailingEmpty(init);
      if init != [] {
        JoinAppend(init, [""]);
        assert init + [""] == parts;
        assert Join(parts) == Join(init) + ".";
      }
    }
  }

  /**
   * `split` loses only trailing dots: joining the segments gives back the key
   * with its trailing dots removed.
   */
  lemma SplitJoin(s: string)
    ensures
      var j := Join(Split(s));
      && |j| <= |s| && j == s[..|j|]
      && forall i :: |j| <= i < |s| ==> s[i] == '.'
  {
    if '.' in s {
      JoinSplitAll(s);
      JoinDropTrailingEmpty(SplitAll(s));
    }
  }

  /** The suffix left after the first `j >= 1` segments of a non-empty key is shorter than the key. */
  lemma SuffixShorter(key: string, j: nat)
    requires key != "" && 1 <= j <= |Split(key)|
    ensures |Join(Split(key)[j..])| < |key|
  {
    var parts := Split(key);
    SplitJoin(key);
    if j < |parts| {
      JoinAppend(parts[..j], parts[j..]);
      assert parts[..j] + parts[j..] == parts;
    }
  }
}

=== FILE: large_array.dfy ===
/**
 * `LargeArray<T>`: an append-only container that spreads one logical sequence
 * over an ordered list of fixed-capacity chunks. The container is an immutable
 * value; every mutating Java method becomes a function returning the new state
 * (or the exception it would have thrown).
 */
module LargeArrays {
  import opened Wrappers
  import opened Chunks
  import opened ChunkIndex

  /** Initial chunk capacity used by the one-argument constructor. */
  const DefaultMemoryBlockSize: nat := 1024
  /** Java's `Integer.MAX_VALUE`, the default sub-array size. */
  const IntegerMaxValue: nat := 0x7fff_ffff

  /** The construction parameters, fixed for the container's lifetime. */
  datatype Config = Config(maximumSize: int, memoryBlockSize: int, subArraySize: int)

  /**
   * Parameters with a positive divisor. A sub-array size of 0 makes every
   * `add` divide by zero; a negative one leaves, through Java's truncating
   * division, a single chunk holding at most `min(memoryBlockSize, |subArraySize|)`
   * elements. Neither is modelled.
   */
  type Settings = c: Config | c.subArraySize >= 1
    witness Config(0, DefaultMemoryBlockSize, IntegerMaxValue)

  /**
   * `ArrayFull` and `OutOfBounds` are the container's own `CoreException`s;
   * `BackingFailure` stands for a Java runtime exception raised by the chunk
   * list or a chunk (negative capacity, offset past the capacity).
   */
  datatype Error = ArrayFull | OutOfBounds | BackingFailure

  /**
   * The container state. `blank` is the value a fresh chunk slot holds;
   * `nextIndex` is the logical size.
   */
  datatype LargeArray<T> = LargeArray(settings: Settings, blank: T, chunks: seq<seq<T>>, nextIndex: nat)

  function Min(x: int, y: int): int {
    if x <= y then x else y
  }

  /** The divisor used for every index translation. */
  function SubSize<T>(a: LargeArray<T>): nat {
    a.settings.subArraySize
  }

  /** An empty container with the given parameters (the three-argument constructor). */
  function New<T>(maximumSize: int, memoryBlockSize: int, subArraySize: int, blank: T): (a: LargeArray<T>)
    requires subArraySize >= 1
    ensures a.settings == Config(maximumSize, memoryBlockSize, subArraySize)
    ensures Valid(a) && Contents(a) == []
  {
    LargeArray(Config(maximumSize, memoryBlockSize, subArraySize), blank, [], 0)
  }

  /** The one-argument constructor: 1024-slot initial chunks, sub-arrays up to `Integer.MAX_VALUE`. */
  function NewWithDefaults<T>(maximumSize: int, blank: T): (a: LargeArray<T>)
    ensures a.settings == Config(maximumSize, DefaultMemoryBlockSize, IntegerMaxValue)
    ensures Valid(a) && Contents(a) == []
  {
    New(maximumSize, DefaultMemoryBlockSize, IntegerMaxValue, blank)
  }

  // ---------------------------------------------------------------------------
  // Representation invariant and abstraction
  // ---------------------------------------------------------------------------

  /** Index `i` lands in an existing chunk whose capacity exceeds its offset. */
  predicate Stored<T>(a: LargeArray<T>, i: nat) {
    var s := SubSize(a);
    ArrayIndex(i, s) < |a.chunks| && IndexInside(i, s) < |a.chunks[ArrayIndex(i, s)]|
  }

  /** Every logical index below the size is stored. */
  predicate Covers<T>(a: LargeArray<T>) {
    forall i: nat :: i < a.nextIndex ==> Stored(a, i)
  }

  /** Number of chunks a container of logical size `n` has created: one per touched ordinal. */
  function ChunkCount(n: nat, s: nat): nat
    requires s >= 1
  {
    if n == 0 then 0 else ArrayIndex(n - 1, s) + 1
  }

  /**
   * The representation invariant: the size stays under the maximum, chunks
   * exist exactly for the ordinals touched so far, no chunk is larger than the
   * sub-array size, and every index below the size is stored.
   */
  predicate Valid<T>(a: LargeArray<T>) {
    && (a.nextIndex == 0 || a.nextIndex <= a.settings.maximumSize)
    && |a.chunks| == ChunkCount(a.nextIndex, SubSize(a))
    && (forall k :: 0 <= k < |a.chunks| ==> |a.chunks[k]| <= SubSize(a))
    && Covers(a)
  }

  /**
   * The invariant of containers whose new chunks get at least `subArraySize`
   * slots: chunk count, size bound and coverage as in `Valid`, but every chunk
   * has at least `subArraySize` slots, so no write ever needs growth.
   */
  predicate Roomy<T>(a: LargeArray<T>) {
    && (a.nextIndex == 0 || a.nextIndex <= a.settings.maximumSize)
    && |a.chunks| == ChunkCount(a.nextIndex, SubSize(a))
    && (forall k :: 0 <= k < |a.chunks| ==> SubSize(a) <= |a.chunks[k]|)
    && Covers(a)
  }

  /**
   * What `Valid` and `Roomy` share: chunks exist exactly for the ordinals
   * touched so far, and every index below the size is stored.
   */
  predicate Tiled<T>(a: LargeArray<T>) {
    |a.chunks| == ChunkCount(a.nextIndex, SubSize(a)) && Covers(a)
  }

  /** The element stored for index `i`. */
  function Cell<T>(a: LargeArray<T>, i: nat): T
    requires Stored(a, i)
  {
    a.chunks[ArrayIndex(i, SubSize(a))][IndexInside(i, SubSize(a))]
  }

  /** The logical sequence the container represents. */
  function Contents<T>(a: LargeArray<T>): (xs: seq<T>)
    requires Covers(a)
    ensures |xs| == a.nextIndex
    ensures forall i :: 0 <= i < |xs| ==> xs[i] == Cell(a, i)
  {
    seq(a.nextIndex, i requires 0 <= i < a.nextIndex && Covers(a) => Cell(a, i))
  }

  // ---------------------------------------------------------------------------
  // Size queries
  // ---------------------------------------------------------------------------

  /** `size()`: the number of elements appended so far. */
  function Size<T>(a: LargeArray<T>): (n: nat)
    ensures Covers(a) ==> n == |Contents(a)|
  {
    a.nextIndex
  }

  /** `isEmpty()`. */
  function IsEmpty<T>(a: LargeArray<T>): (b: bool)
    ensures b <==> Size(a) == 0
    ensures Covers(a) ==> (b <==> Contents(a) == [])
  {
    Size(a) == 0
  }

  // ---------------------------------------------------------------------------
  // Growth on append
  // ---------------------------------------------------------------------------

  /** Sum of the capacities of the given chunks. */
  function SumCapacities<T>(cs: seq<seq<T>>): nat {
    if cs == [] then 0 else SumCapacities(cs[..|cs| - 1]) + |cs[|cs| - 1]|
  }

  /**
   * `filledArraysSize()`: the capacity of the chunks counted as already packed.
   * As in the source, it leaves out the last TWO chunks.
   */
  function FilledArraysSize<T>(chunks: seq<seq<T>>): (r: nat)
    ensures |chunks| <= 1 ==> r == 0
    ensures |chunks| >= 2 ==> r + |chunks[|chunks| - 2]| == SumCapacities(chunks[..|chunks| - 1])
  {
    if |chunks| <= 1 then 0
    else
      assert chunks[..|chunks| - 1][..|chunks| - 2] == chunks[..|chunks| - 2];
      SumCapacities(chunks[..|chunks| - 2])
  }

  /**
   * The capacity a full chunk of capacity `current` is resized to: double it, but
   * neither beyond the sub-array size nor beyond the room left under the
   * maximum size once the packed chunks are subtracted.
   */
  function GrownCapacity<T>(a: LargeArray<T>, chunks: seq<seq<T>>, current: nat): (c: int)
    ensures c <= SubSize(a) && c <= 2 * current
    ensures c <= a.settings.maximumSize - FilledArraysSize(chunks)
    ensures c == SubSize(a) || c == 2 * current || c == a.settings.maximumSize - FilledArraysSize(chunks)
  {
    Min(Min(2 * current, SubSize(a)), Min(a.settings.maximumSize - FilledArraysSize(chunks), SubSize(a)))
  }

  /**
   * `add(item)` with new chunks created at capacity `initial`. The source
   * passes `memoryBlockSize` unchanged (see `Add`); `AddClipped` passes it
   * clipped to the sub-array size.
   */
  function AddWithInitial<T>(a: LargeArray<T>, item: T, initial: int): (r: Result<LargeArray<T>, Error>)
    ensures (r.Failure? && r.error == ArrayFull) <==> a.nextIndex >= a.settings.maximumSize
    ensures r.Success? ==>
      && r.value.settings == a.settings && r.value.blank == a.blank
      && r.value.nextIndex == a.nextIndex + 1
    ensures r.Success? ==>
      |r.value.chunks| == if |a.chunks| <= ArrayIndex(a.nextIndex, SubSize(a)) then |a.chunks| + 1 else |a.chunks|
    ensures r.Success? ==> forall j :: 0 <= j < |a.chunks| && j != ArrayIndex(a.nextIndex, SubSize(a)) ==>
      r.value.chunks[j] == a.chunks[j]
    ensures r.Success? ==> Stored(r.value, a.nextIndex) && Cell(r.value, a.nextIndex) == item
    ensures r.Success? && ArrayIndex(a.nextIndex, SubSize(a)) < |a.chunks| ==>
      var k := ArrayIndex(a.nextIndex, SubSize(a));
      && |r.value.chunks[k]| >= |a.chunks[k]|
      && forall off :: 0 <= off < |a.chunks[k]| && off != IndexInside(a.nextIndex, SubSize(a)) ==>
           r.value.chunks[k][off] == a.chunks[k][off]
  {
    var s := SubSize(a);
    var n := a.nextIndex;
    if n >= a.settings.maximumSize then Failure(ArrayFull)
    else
      var k := ArrayIndex(n, s);
      var o := IndexInside(n, s);
      if |a.chunks| <= k && initial < 0 then Failure(BackingFailure)
      else
        var chunks1 := if |a.chunks| <= k then a.chunks + [NewChunk(initial, a.blank)] else a.chunks;
        if |chunks1| <= k then Failure(BackingFailure)
        else
          var current := chunks1[k];
          var newSize := GrownCapacity(a, chunks1, |current|);
          if o >= |current| && newSize < 0 then Failure(BackingFailure)
          else
            var chunks2 := if o >= |current| then chunks1[k := WithNewSize(current, newSize, a.blank)] else chunks1;
            if o >= |chunks2[k]| then Failure(BackingFailure)
            else Success(a.(chunks := chunks2[k := chunks2[k][o := item]], nextIndex := n + 1))
  }

  /**
   * `add(item)` as the source does it, new chunks getting `memoryBlockSize`
   * slots, except that the doubling does not wrap around to a negative `int`.
   */
  function Add<T>(a: LargeArray<T>, item: T): (r: Result<LargeArray<T>, Error>)
    ensures (r.Failure? && r.error == ArrayFull) <==> a.nextIndex >= a.settings.maximumSize
    ensures r.Success? ==> r.value.nextIndex == a.nextIndex + 1
    ensures r.Success? ==> Stored(r.value, a.nextIndex) && Cell(r.value, a.nextIndex) == item
  {
    AddWithInitial(a, item, a.settings.memoryBlockSize)
  }

  /** `add(item)` with new chunks clipped to the sub-array size. */
  function AddClipped<T>(a: LargeArray<T>, item: T): (r: Result<LargeArray<T>, Error>)
    ensures (r.Failure? && r.error == ArrayFull) <==> a.nextIndex >= a.settings.maximumSize
    ensures a.settings.memoryBlockSize <= SubSize(a) ==> r == Add(a, item)
  {
    AddWithInitial(a, item, Min(a.settings.memoryBlockSize, SubSize(a)))
  }

  // ---------------------------------------------------------------------------
  // Indexed access
  // ---------------------------------------------------------------------------

  /** `get(index)`: fails with `OutOfBounds` exactly when `index >= size()`. */
  function Get<T>(a: LargeArray<T>, index: int): (r: Result<T, Error>)
    ensures (r.Failure? && r.error == OutOfBounds) <==> index >= a.nextIndex
    ensures Covers(a) && 0 <= index < a.nextIndex ==> r == Success(Contents(a)[index])
  {
    if index >= a.nextIndex then Failure(OutOfBounds)
    else if index < 0 then Failure(BackingFailure)
    else if Stored(a, index) then Success(Cell(a, index))
    else Failure(BackingFailure)
  }

  /** `set(index, item)`: overwrites an existing element; fails with `OutOfBounds` when `index >= size()`. */
  function Set<T>(a: LargeArray<T>, index: int, item: T): (r: Result<LargeArray<T>, Error>)
    ensures (r.Failure? && r.error == OutOfBounds) <==> index >= a.nextIndex
    ensures Covers(a) && 0 <= index < a.nextIndex ==> r.Success?
    ensures r.Success? ==>
      && r.value.settings == a.settings && r.value.nextIndex == a.nextIndex
      && |r.value.chunks| == |a.chunks|
      && forall k :: 0 <= k < |a.chunks| ==> |r.value.chunks[k]| == |a.chunks[k]|
  {
    if index >= a.nextIndex then Failure(OutOfBounds)
    else if index < 0 || !Stored(a, index) then Failure(BackingFailure)
    else
      var k := ArrayIndex(index, SubSize(a));
      var o := IndexInside(index, SubSize(a));
      Success(a.(chunks := a.chunks[k := a.chunks[k][o := item]]))
  }

  // ---------------------------------------------------------------------------
  // Trimming
  // ---------------------------------------------------------------------------

  /** A fill ratio `num/den` in [0, 1] (the source's `Ratio`), compared by cross-multiplication. */
  datatype Fraction = Fraction(num: nat, den: nat)

  type Ratio = r: Fraction | 0 < r.den && r.num <= r.den witness Fraction(1, 1)

  /** `Ratio.MAXIMUM`. */
  const Maximum: Ratio := Fraction(1, 1)

  /**
   * The fill test `used / capacity < ratio`. A zero capacity makes the Java
   * division yield NaN, which compares as not less.
   */
  predicate LessFilled(used: nat, capacity: nat, ratio: Ratio)
    ensures LessFilled(used, capacity, ratio) ==> used < capacity
  {
    FillBelowRatio(used, capacity, ratio);
    capacity > 0 && used * ratio.den < ratio.num * capacity
  }

  /** A fill below a ratio of at most 1 is below the capacity. */
  lemma FillBelowRatio(used: nat, capacity: nat, ratio: Ratio)
    ensures used * ratio.den < ratio.num * capacity ==> used < capacity
  {
    if used >= capacity {
      MulMonotone(capacity, used, ratio.den);
      MulMonotone(ratio.num, ratio.den, capacity);
    }
  }

  /**
   * Replace the last chunk by a trimmed copy of capacity `used` when its fill
   * `used / capacity` is below `ratio`; no-op without chunks.
   */
  function TrimLast<T>(a: LargeArray<T>, used: nat, ratio: Ratio): (r: LargeArray<T>)
    ensures r.settings == a.settings && r.blank == a.blank && r.nextIndex == a.nextIndex
    ensures |r.chunks| == |a.chunks|
    ensures forall j :: 0 <= j < |a.chunks| - 1 ==> r.chunks[j] == a.chunks[j]
    ensures a.chunks == [] ==> r == a
    ensures a.chunks != [] ==>
      var last := a.chunks[|a.chunks| - 1];
      && (LessFilled(used, |last|, ratio) ==> r.chunks[|a.chunks| - 1] == last[..used])
      && (!LessFilled(used, |last|, ratio) ==> r == a)
  {
    if a.chunks == [] then a
    else
      var last := a.chunks[|a.chunks| - 1];
      if LessFilled(used, |last|, ratio)
      then a.(chunks := a.chunks[|a.chunks| - 1 := Trimmed(last, used)])
      else a
  }

  /**
   * `trimIfLessFilledThan(ratio)` as the source writes it: the used count of
   * the last chunk is taken as `indexInside(nextIndex)`, which is 0 when the
   * last chunk is exactly full.
   */
  function TrimIfLessFilledThan<T>(a: LargeArray<T>, ratio: Ratio): (r: LargeArray<T>)
    ensures r.nextIndex == a.nextIndex && |r.chunks| == |a.chunks|
    ensures forall j :: 0 <= j < |a.chunks| - 1 ==> r.chunks[j] == a.chunks[j]
    ensures a.chunks == [] ==> r == a
  {
    TrimLast(a, IndexInside(a.nextIndex, SubSize(a)), ratio)
  }

  /** `trim()`: `trimIfLessFilledThan(Ratio.MAXIMUM)`. */
  function Trim<T>(a: LargeArray<T>): (r: LargeArray<T>)
    ensures r.nextIndex == a.nextIndex && |r.chunks| == |a.chunks|
  {
    TrimIfLessFilledThan(a, Maximum)
  }

  /** The number of elements held by the last chunk of a container of size `n`. */
  function LastUsed(n: nat, s: nat): (u: nat)
    requires s >= 1
    ensures n > 0 ==> 1 <= u <= s
    ensures n == 0 ==> u == 0
  {
    if n == 0 then 0 else IndexInside(n - 1, s) + 1
  }

  /** `trimIfLessFilledThan(ratio)` with the used count of a full last chunk taken as its size. */
  function TrimIfLessFilledThanCorrected<T>(a: LargeArray<T>, ratio: Ratio): (r: LargeArray<T>)
    ensures r.nextIndex == a.nextIndex && |r.chunks| == |a.chunks|
    ensures forall j :: 0 <= j < |a.chunks| - 1 ==> r.chunks[j] == a.chunks[j]
    ensures a.chunks == [] ==> r == a
  {
    TrimLast(a, LastUsed(a.nextIndex, SubSize(a)), ratio)
  }

  /** `trim()` over the corrected used count. */
  function TrimCorrected<T>(a: LargeArray<T>): (r: LargeArray<T>)
    ensures r.nextIndex == a.nextIndex && |r.chunks| == |a.chunks|
  {
    TrimIfLessFilledThanCorrected(a, Maximum)
  }
}

=== FILE: large_array_findings.dfy ===
/**
 * Concrete containers that exhibit behaviours of the source's `add` which
 * break what its own documentation promises: sub-arrays no larger than
 * `subArraySize` (LargeArray.java:54-55) and more than `Integer.MAX_VALUE`
 * items (LargeArray.java:14).
 */
module LargeArrayFindings {
  import opened Wrappers
  import opened Chunks
  import opened ChunkIndex
  import opened LargeArrays
  import opened LargeArrayProofs

  /** `add` into an existing chunk that still has room writes in place. */
  lemma AddInPlace<T>(a: LargeArray<T>, item: T)
    requires a.nextIndex < a.settings.maximumSize
    requires ArrayIndex(a.nextIndex, SubSize(a)) < |a.chunks|
    requires IndexInside(a.nextIndex, SubSize(a)) < |a.chunks[ArrayIndex(a.nextIndex, SubSize(a))]|
    ensures
      var k := ArrayIndex(a.nextIndex, SubSize(a));
      var o := IndexInside(a.nextIndex, SubSize(a));
      Add(a, item) == Success(a.(chunks := a.chunks[k := a.chunks[k][o := item]], nextIndex := a.nextIndex + 1))
  {
  }

  /** `add` at the first index of a missing chunk appends a `memoryBlockSize` chunk holding the item. */
  lemma AddOpensChunk<T>(a: LargeArray<T>, item: T)
    requires a.nextIndex < a.settings.maximumSize && a.settings.memoryBlockSize >= 1
    requires ArrayIndex(a.nextIndex, SubSize(a)) == |a.chunks| && IndexInside(a.nextIndex, SubSize(a)) == 0
    ensures Add(a, item) == Success(a.(
      chunks := a.chunks + [NewChunk(a.settings.memoryBlockSize, a.blank)[0 := item]],
      nextIndex := a.nextIndex + 1))
  {
    var c := NewChunk(a.settings.memoryBlockSize, a.blank);
    assert (a.chunks + [c])[|a.chunks| := c[0 := item]] == a.chunks + [c[0 := item]];
  }

  /**
   * New chunks are not clipped to the sub-array size. With maximum 6,
   * memoryBlockSize 10 and subArraySize 2, five appends and a `trim()` leave
   * a container of size 5 whose next append fails: the packed-chunk
   * accounting subtracts a 10-slot chunk and asks for a negative capacity.
   */
  lemma UnclippedChunkBreaksAdd()
    ensures
      var a0 := New(6, 10, 2, 0);
      var a1 := Add(a0, 10).value;
      var a2 := Add(a1, 11).value;
      var a3 := Add(a2, 12).value;
      var a4 := Add(a3, 13).value;
      var a5 := Add(a4, 14).value;
      && Add(a0, 10).Success? && Add(a1, 11).Success? && Add(a2, 12).Success?
      && Add(a3, 13).Success? && Add(a4, 14).Success?
      && Size(Trim(a5)) == 5 && Size(Trim(a5)) < 6
      && Add(Trim(a5), 15) == Failure(BackingFailure)
  {
    var a3 := FirstThreeAdds();
    var a5 := FiveAdds();
    TrimAfterFiveAdds(a5);
    AddAfterTrimFails(Trim(a5));
  }

  /** `trim()` after the five appends cuts the last chunk down to its one item. */
  lemma TrimAfterFiveAdds(a5: LargeArray<int>)
    requires
      var b := NewChunk(10, 0);
      a5 == LargeArray(Config(6, 10, 2), 0, [b[0 := 10][1 := 11], b[0 := 12][1 := 13], b[0 := 14]], 5)
    ensures
      var b := NewChunk(10, 0);
      Trim(a5) == LargeArray(Config(6, 10, 2), 0, [b[0 := 10][1 := 11], b[0 := 12][1 := 13], b[0 := 14][..1]], 5)
  {
    Decompose(5, 2, 2, 1);
    assert LessFilled(1, 10, Maximum);
  }

  /** The sixth append to the trimmed container asks for a capacity of -4 and fails. */
  lemma AddAfterTrimFails(t: LargeArray<int>)
    requires
      var b := NewChunk(10, 0);
      t == LargeArray(Config(6, 10, 2), 0, [b[0 := 10][1 := 11], b[0 := 12][1 := 13], b[0 := 14][..1]], 5)
    ensures Add(t, 15) == Failure(BackingFailure)
  {
    var b := NewChunk(10, 0);
    var c0 := b[0 := 10][1 := 11];
    Decompose(5, 2, 2, 1);
    assert FilledArraysSize(t.chunks) == 10 by {
      assert t.chunks[..1] == [c0];
      assert SumCapacities([c0]) == SumCapacities([c0][..0]) + 10;
    }
    assert GrownCapacity(t, t.chunks, 1) == -4;
  }

  /**
   * The fourth and fifth appends of `UnclippedChunkBreaksAdd`, from the state
   * `FirstThreeAdds` reaches: three 10-slot chunks holding two, two and one
   * items.
   */
  lemma FiveAdds() returns (a5: LargeArray<int>)
    ensures
      var b := NewChunk(10, 0);
      var a3 := LargeArray(Config(6, 10, 2), 0, [b[0 := 10][1 := 11], b[0 := 12]], 3);
      && Add(a3, 13).Success?
      && Add(Add(a3, 13).value, 14) == Success(a5)
    ensures
      var b := NewChunk(10, 0);
      a5 == LargeArray(Config(6, 10, 2), 0, [b[0 := 10][1 := 11], b[0 := 12][1 := 13], b[0 := 14]], 5)
  {
    var b := NewChunk(10, 0);
    var c0 := b[0 := 10][1 := 11];
    var c1 := b[0 := 12][1 := 13];
    var a3 := FirstThreeAdds();
    Decompose(3, 2, 1, 1);
    AddInPlace(a3, 13);
    var a4 := Add(a3, 13).value;
    assert a4.chunks == [c0, c1] && a4.nextIndex == 4;
    Decompose(4, 2, 2, 0);
    AddOpensChunk(a4, 14);
    a5 := Add(a4, 14).value;
    assert a5.chunks == [c0, c1, b[0 := 14]] && a5.nextIndex == 5;
  }

  /** The first three appends of `UnclippedChunkBreaksAdd`: two 10-slot chunks, the second holding one item. */
  lemma FirstThreeAdds() returns (a3: LargeArray<int>)
    ensures
      var a0 := New(6, 10, 2, 0);
      var a1 := Add(a0, 10).value;
      var a2 := Add(a1, 11).value;
      && Add(a0, 10).Success? && Add(a1, 11).Success? && Add(a2, 12) == Success(a3)
    ensures
      var b := NewChunk(10, 0);
      a3 == LargeArray(Config(6, 10, 2), 0, [b[0 := 10][1 := 11], b[0 := 12]], 3)
  {
    var a0 := New(6, 10, 2, 0);
    var b := NewChunk(10, 0);
    Decompose(0, 2, 0, 0);
    AddOpensChunk(a0, 10);
    var a1 := Add(a0, 10).value;
    assert a1.chunks == [b[0 := 10]] && a1.nextIndex == 1;
    Decompose(1, 2, 0, 1);
    AddInPlace(a1, 11);
    var a2 := Add(a1, 11).value;
    assert a2.chunks == [b[0 := 10][1 := 11]] && a2.nextIndex == 2;
    Decompose(2, 2, 1, 0);
    AddOpensChunk(a2, 12);
    a3 := Add(a2, 12).value;
  }

  /**
   * `filledArraysSize()` leaves out the last two chunks, so growth may reserve
   * more slots than the maximum size can ever use: a valid container with
   * maximum 11, memoryBlockSize 2, subArraySize 4 and chunk capacities 4, 4, 2
   * holding 10 elements grows its last chunk to 4 on the next append, for a
   * total capacity of 12.
   */
  lemma GrowthOvershootsMaximum()
    ensures
      var z := NewChunk(4, 0);
      var a := LargeArray(Config(11, 2, 4), 0, [z, z, z[..2]], 10);
      && Valid(a)
      && Add(a, 7).Success?
      && |Add(a, 7).value.chunks[2]| == 4
      && SumCapacities(Add(a, 7).value.chunks) == 12 > a.settings.maximumSize
  {
    var z := NewChunk(4, 0);
    var a := LargeArray(Config(11, 2, 4), 0, [z, z, z[..2]], 10);
    forall i: nat | i < 10
      ensures Stored(a, i)
    {
      Decompose(i, 4, i / 4, i % 4);
    }
    Decompose(9, 4, 2, 1);
    Decompose(10, 4, 2, 2);
    assert Valid(a);
    assert FilledArraysSize(a.chunks) == 4 by {
      assert a.chunks[..1] == [z];
      assert SumCapacities([z]) == SumCapacities([z][..0]) + 4;
    }
    var b := Add(a, 7).value;
    assert |b.chunks[2]| == 4;
    assert SumCapacities(b.chunks) == 12 by {
      assert b.chunks[..2] == [z, z];
      assert b.chunks[..2][..1] == [z];
      assert SumCapacities([z]) == SumCapacities([z][..0]) + 4;
    }
  }

  /** Java `int` arithmetic: `x` wrapped into [-2^31, 2^31). */
  function WrapInt(x: int): (r: int)
    ensures -0x8000_0000 <= r < 0x8000_0000
    ensures (r - x) % 0x1_0000_0000 == 0
    ensures -0x8000_0000 <= x < 0x8000_0000 ==> r == x
  {
    (x + 0x8000_0000) % 0x1_0000_0000 - 0x8000_0000
  }

  /**
   * The growth capacity as the source computes it, with `2 * old.size()`
   * evaluated in `int`. Below 2^30 slots it is the model's `GrownCapacity`.
   */
  function GrownCapacityAsWritten<T>(a: LargeArray<T>, chunks: seq<seq<T>>, current: nat): (c: int)
    ensures c <= SubSize(a) && c <= WrapInt(2 * current)
    ensures c <= a.settings.maximumSize - FilledArraysSize(chunks)
    ensures c == SubSize(a) || c == WrapInt(2 * current) || c == a.settings.maximumSize - FilledArraysSize(chunks)
    ensures current < 0x4000_0000 ==> c == GrownCapacity(a, chunks, current)
  {
    Min(Min(WrapInt(2 * current), SubSize(a)), Min(a.settings.maximumSize - FilledArraysSize(chunks), SubSize(a)))
  }

  /**
   * The container of the one-argument constructor after 2^30 appends: chunk 0
   * has doubled from 1024 to 2^30 slots and is full. It is valid, the next
   * append must grow chunk 0, and the source's doubled capacity wraps to
   * `Integer.MIN_VALUE`, so `withNewSize` is asked for a negative size.
   */
  lemma DefaultGrowthOverflows<T>(maximumSize: int, blank: T)
    requires maximumSize > 0x4000_0000
    ensures
      var a := LargeArray(NewWithDefaults(maximumSize, blank).settings, blank, [NewChunk(0x4000_0000, blank)], 0x4000_0000);
      && Valid(a)
      && ArrayIndex(a.nextIndex, SubSize(a)) == 0
      && IndexInside(a.nextIndex, SubSize(a)) == |a.chunks[0]|
      && GrownCapacityAsWritten(a, a.chunks, |a.chunks[0]|) == -0x8000_0000
  {
    var a := LargeArray(NewWithDefaults(maximumSize, blank).settings, blank, [NewChunk(0x4000_0000, blank)], 0x4000_0000);
    DefaultChunkZero(a);
  }

  /**
   * In the same container the model's growth, without wrap-around, gives
   * chunk 0 room for the next element: the append succeeds and reads back.
   */
  lemma DefaultGrowthFits<T>(maximumSize: int, blank: T, item: T)
    requires maximumSize > 0x4000_0000
    ensures
      var a := LargeArray(NewWithDefaults(maximumSize, blank).settings, blank, [NewChunk(0x4000_0000, blank)], 0x4000_0000);
      && GrownCapacity(a, a.chunks, 0x4000_0000) > 0x4000_0000
      && Add(a, item).Success?
      && Get(Add(a, item).value, 0x4000_0000) == Success(item)
  {
    var a := LargeArray(NewWithDefaults(maximumSize, blank).settings, blank, [NewChunk(0x4000_0000, blank)], 0x4000_0000);
    DefaultChunkZero(a);
    AddAppends(a, item);
  }

  /** Indices below `Integer.MAX_VALUE` all live in chunk 0 of a default container holding 2^30 elements in one chunk. */
  lemma DefaultChunkZero<T>(a: LargeArray<T>)
    requires a.settings.subArraySize == IntegerMaxValue && a.settings.memoryBlockSize == DefaultMemoryBlockSize
    requires a.settings.maximumSize > 0x4000_0000
    requires a.chunks == [NewChunk(0x4000_0000, a.blank)] && a.nextIndex == 0x4000_0000
    ensures Valid(a) && ArrayIndex(a.nextIndex, SubSize(a)) == 0 && IndexInside(a.nextIndex, SubSize(a)) == 0x4000_0000
  {
    var s := SubSize(a);
    forall i: nat | i < a.nextIndex
      ensures Stored(a, i)
    {
      Decompose(i, s, 0, i);
    }
    Decompose(a.nextIndex - 1, s, 0, a.nextIndex - 1);
    Decompose(a.nextIndex, s, 0, a.nextIndex);
  }
}

=== FILE: large_array_iteration.dfy ===
/**
 * The container's iterator: a cursor holding the size captured when it was
 * created and the next index to read; each step calls `get`.
 */
module LargeArrayIteration {
  import opened Wrappers
  import opened LargeArrays
  import opened LargeArrayProofs

  datatype Cursor = Cursor(totalSize: nat, index: nat)

  /** `iterator()`: captures `size()` once; later appends do not move the bound. */
  function Iterator<T>(a: LargeArray<T>): (c: Cursor)
    ensures c.index == 0
    ensures Covers(a) ==> c.totalSize == |Contents(a)|
  {
    Cursor(Size(a), 0)
  }

  /** `hasNext()`. */
  predicate HasNext(c: Cursor) {
    c.index < c.totalSize
  }

  /**
   * An iterator advanced `k` times has a next element exactly while `k` is
   * below the size the container had when the iterator was created, and that
   * element is the `k`-th of the represented sequence.
   */
  lemma IteratorHasNext<T>(a: LargeArray<T>, k: nat)
    requires Covers(a)
    ensures HasNext(Cursor(Iterator(a).totalSize, k)) <==> k < |Contents(a)|
    ensures HasNext(Cursor(Iterator(a).totalSize, k)) ==>
      Next(a, Cursor(Iterator(a).totalSize, k)).0 == Success(Contents(a)[k])
  {
  }

  /** `next()`: reads `get(index)` and advances the cursor even when the read fails. */
  function Next<T>(a: LargeArray<T>, c: Cursor): (r: (Result<T, Error>, Cursor))
    ensures r.1 == Cursor(c.totalSize, c.index + 1)
    ensures Covers(a) && c.index < a.nextIndex ==> r.0 == Success(Contents(a)[c.index])
    ensures c.index >= a.nextIndex ==> r.0 == Failure(OutOfBounds)
  {
    (Get(a, c.index), Cursor(c.totalSize, c.index + 1))
  }

  /**
   * Drains a cursor. Over a covered container whose size is at least the
   * captured bound it yields exactly the elements from the cursor's index up
   * to the bound, in order; a bound beyond the size makes some step fail.
   */
  method Drain<T>(a: LargeArray<T>, c: Cursor) returns (r: Result<seq<T>, Error>)
    ensures Covers(a) && c.index <= c.totalSize <= a.nextIndex ==>
      r == Success(Contents(a)[c.index..c.totalSize])
    ensures c.index < c.totalSize && a.nextIndex < c.totalSize ==> r.Failure?
  {
    var cur := c;
    var items: seq<T> := [];
    while HasNext(cur)
      invariant cur.totalSize == c.totalSize && c.index <= cur.index
      invariant cur.index == c.index || cur.index <= a.nextIndex
      invariant cur.index == c.index || cur.index <= c.totalSize
      invariant Covers(a) && cur.index <= a.nextIndex ==> items == Contents(a)[c.index..cur.index]
      decreases cur.totalSize - cur.index
    {
      var step := Next(a, cur);
      if step.0.Failure? {
        return Failure(step.0.error);
      }
      items := items + [step.0.value];
      cur := step.1;
    }
    return Success(items);
  }

  /** Iterating a covered container yields its whole sequence, in order, once. */
  method Elements<T>(a: LargeArray<T>) returns (r: Result<seq<T>, Error>)
    ensures Covers(a) ==> r == Success(Contents(a))
  {
    r := Drain(a, Iterator(a));
    if Covers(a) {
      assert Contents(a)[0..a.nextIndex] == Contents(a);
    }
  }

  /**
   * An iterator created before an `add` still ends at the old size, and the
   * elements below that size are the ones it would have yielded before; an
   * iterator created after the `add` sees one more element.
   */
  lemma EarlierIteratorUnaffected<T>(a: LargeArray<T>, item: T)
    requires Covers(a) && Add(a, item).Success?
    ensures
      var b := Add(a, item).value;
      && Covers(b)
      && Iterator(a).totalSize <= b.nextIndex
      && Contents(b)[Iterator(a).index..Iterator(a).totalSize] == Contents(a)
      && Iterator(b).totalSize == Iterator(a).totalSize + 1
  {
    AddKeepsCovers(a, item, a.settings.memoryBlockSize);
    var b := Add(a, item).value;
    assert Contents(b)[0..a.nextIndex] == Contents(a);
  }
}

=== FILE: large_array_proofs.dfy ===
/** Properties of `LargeArray` operations: the invariant they keep and the sequence they represent. */
module LargeArrayProofs {
  import opened Wrappers
  import opened Chunks
  import opened ChunkIndex
  import opened LargeArrays

  /** Chunk capacities bounded by `s` sum to at most `s` per chunk. */
  lemma {:induction false} SumCapacitiesBound<T>(cs: seq<seq<T>>, s: nat)
    requires forall k :: 0 <= k < |cs| ==> |cs[k]| <= s
    ensures SumCapacities(cs) <= |cs| * s
  {
    if cs != [] {
      SumCapacitiesBound(cs[..|cs| - 1], s);
    }
  }

  /** Chunks of capacity exactly `s` sum to `s` per chunk. */
  lemma {:induction false} SumCapacitiesExact<T>(cs: seq<seq<T>>, s: nat)
    requires forall k :: 0 <= k < |cs| ==> |cs[k]| == s
    ensures SumCapacities(cs) == |cs| * s
  {
    if cs != [] {
      SumCapacitiesExact(cs[..|cs| - 1], s);
    }
  }

  /** In a tiled non-empty container, the last stored index lives in the last chunk. */
  lemma LastChunkHoldsLastIndex<T>(a: LargeArray<T>)
    requires Tiled(a) && a.nextIndex > 0
    ensures ArrayIndex(a.nextIndex - 1, SubSize(a)) == |a.chunks| - 1
    ensures Stored(a, a.nextIndex - 1)
    ensures |a.chunks[|a.chunks| - 1]| >= LastUsed(a.nextIndex, SubSize(a))
  {
  }

  /** In a valid container every chunk but the last is exactly full. */
  lemma InnerChunksFull<T>(a: LargeArray<T>, j: nat)
    requires Valid(a) && j + 1 < |a.chunks|
    ensures |a.chunks[j]| == SubSize(a)
  {
    var s := SubSize(a);
    var n := a.nextIndex;
    var i := j * s + (s - 1);
    OrdinalOrder(n - 1, s, |a.chunks| - 1);
    MulMonotone(j + 1, |a.chunks| - 1, s);
    assert i < n;
    assert Stored(a, i);
    Decompose(i, s, j, s - 1);
  }

  /**
   * `filledArraysSize()` in a valid container counts exactly the elements of
   * all chunks but the last two (it is 0 with at most one chunk).
   */
  lemma FilledArraysSizeCounts<T>(a: LargeArray<T>)
    requires Valid(a)
    ensures |a.chunks| <= 1 ==> FilledArraysSize(a.chunks) == 0
    ensures |a.chunks| >= 2 ==> FilledArraysSize(a.chunks) == (|a.chunks| - 2) * SubSize(a)
  {
    if |a.chunks| >= 2 {
      var cs := a.chunks[..|a.chunks| - 2];
      forall k | 0 <= k < |cs|
        ensures |cs[k]| == SubSize(a)
      {
        InnerChunksFull(a, k);
      }
      SumCapacitiesExact(cs, SubSize(a));
    }
  }

  /**
   * In a valid container whose last chunk is full up to the next offset, but
   * not a full sub-array, growth makes room past that offset.
   */
  lemma GrowthPastOffset<T>(a: LargeArray<T>)
    requires Valid(a) && a.nextIndex < a.settings.maximumSize
    requires IndexInside(a.nextIndex, SubSize(a)) > 0
    requires |a.chunks| == ArrayIndex(a.nextIndex, SubSize(a)) + 1
    requires |a.chunks[|a.chunks| - 1]| == IndexInside(a.nextIndex, SubSize(a))
    ensures GrownCapacity(a, a.chunks, IndexInside(a.nextIndex, SubSize(a))) > IndexInside(a.nextIndex, SubSize(a))
  {
    var s := SubSize(a);
    var k := ArrayIndex(a.nextIndex, s);
    var filled := FilledArraysSize(a.chunks);
    assert filled <= k * s by {
      if |a.chunks| >= 2 {
        SumCapacitiesBound(a.chunks[..|a.chunks| - 2], s);
        MulMonotone(|a.chunks| - 2, k, s);
      }
    }
  }

  /**
   * In a valid container with initial capacities in [1, subArraySize], an
   * `add` below the maximum succeeds; its target chunk ends up at most
   * subArraySize long and keeps every element it held except at the offset
   * written.
   */
  lemma AddTargetChunk<T>(a: LargeArray<T>, item: T, initial: int)
    requires Valid(a) && 1 <= initial <= SubSize(a) && a.nextIndex < a.settings.maximumSize
    ensures AddWithInitial(a, item, initial).Success?
    ensures
      var b := AddWithInitial(a, item, initial).value;
      var k := ArrayIndex(a.nextIndex, SubSize(a));
      var o := IndexInside(a.nextIndex, SubSize(a));
      && k <= |a.chunks|
      && |b.chunks[k]| <= SubSize(a)
      && (k < |a.chunks| ==>
            && |b.chunks[k]| >= |a.chunks[k]|
            && forall off :: 0 <= off < |a.chunks[k]| && off != o ==> b.chunks[k][off] == a.chunks[k][off])
  {
    AddTargetFits(a, item, initial);
  }

  /** The part of `AddTargetChunk` that needs a case split: success and the capacity bound. */
  lemma AddTargetFits<T>(a: LargeArray<T>, item: T, initial: int)
    requires Valid(a) && 1 <= initial <= SubSize(a) && a.nextIndex < a.settings.maximumSize
    ensures AddWithInitial(a, item, initial).Success?
    ensures ArrayIndex(a.nextIndex, SubSize(a)) <= |a.chunks|
    ensures |AddWithInitial(a, item, initial).value.chunks[ArrayIndex(a.nextIndex, SubSize(a))]| <= SubSize(a)
  {
    var s := SubSize(a);
    var n := a.nextIndex;
    var k := ArrayIndex(n, s);
    var o := IndexInside(n, s);
    var chunks1 := if |a.chunks| <= k then a.chunks + [NewChunk(initial, a.blank)] else a.chunks;
    if n == 0 {
      assert k == 0 && o == 0;
    } else {
      Successor(n - 1, s);
      LastChunkHoldsLastIndex(a);
      if o == 0 {
        assert |a.chunks| == k && |chunks1[k]| == initial;
      } else {
        assert |a.chunks| == k + 1 && chunks1 == a.chunks;
        assert |a.chunks[k]| >= o;
        if |a.chunks[k]| == o {
          GrowthPastOffset(a);
        }
      }
    }
  }

  /**
   * With new chunks of capacity in [1, subArraySize], `add` on a valid
   * container fails only when the container is full; otherwise the result is
   * valid and represents the old sequence with `item` appended.
   */
  lemma AddPreservesValid<T>(a: LargeArray<T>, item: T, initial: int)
    requires Valid(a) && 1 <= initial <= SubSize(a)
    ensures AddWithInitial(a, item, initial).Success? <==> a.nextIndex < a.settings.maximumSize
    ensures AddWithInitial(a, item, initial).Success? ==>
      var b := AddWithInitial(a, item, initial).value;
      Valid(b) && Contents(b) == Contents(a) + [item]
  {
    if a.nextIndex < a.settings.maximumSize {
      AddTargetChunk(a, item, initial);
      AppendedValid(a, AddWithInitial(a, item, initial).value, item);
    }
  }

  /**
   * The facts about one successful `add` that make its result valid: only the
   * target chunk changed, it holds `item` at the new index, and it kept its
   * other elements.
   */
  lemma AppendedValid<T>(a: LargeArray<T>, b: LargeArray<T>, item: T)
    requires Valid(a)
    requires b.settings == a.settings && b.nextIndex == a.nextIndex + 1
    requires b.nextIndex <= a.settings.maximumSize
    requires
      var k := ArrayIndex(a.nextIndex, SubSize(a));
      var o := IndexInside(a.nextIndex, SubSize(a));
      && k <= |a.chunks|
      && |b.chunks| == (if |a.chunks| <= k then |a.chunks| + 1 else |a.chunks|)
      && (forall j :: 0 <= j < |a.chunks| && j != k ==> b.chunks[j] == a.chunks[j])
      && Stored(b, a.nextIndex) && Cell(b, a.nextIndex) == item
      && |b.chunks[k]| <= SubSize(a)
      && (k < |a.chunks| ==>
            && |b.chunks[k]| >= |a.chunks[k]|
            && forall off :: 0 <= off < |a.chunks[k]| && off != o ==> b.chunks[k][off] == a.chunks[k][off])
    ensures Valid(b) && Contents(b) == Contents(a) + [item]
  {
    var s := SubSize(a);
    var n := a.nextIndex;
    var k := ArrayIndex(n, s);
    var o := IndexInside(n, s);
    if n > 0 {
      Successor(n - 1, s);
    }
    assert |b.chunks| == ChunkCount(n + 1, s);
    forall j | 0 <= j < |b.chunks|
      ensures |b.chunks[j]| <= s
    {
      if j != k {
        assert b.chunks[j] == a.chunks[j];
      }
    }
    forall i: nat | i < n
      ensures Stored(b, i) && Cell(b, i) == Cell(a, i)
    {
      assert Stored(a, i);
      if ArrayIndex(i, s) == k {
        assert IndexInside(i, s) != o by {
          if IndexInside(i, s) == o {
            Injective(i, n, s);
          }
        }
      }
    }
    forall i: nat | i < n + 1
      ensures Stored(b, i)
    {
      if i < n {
        assert Stored(b, i);
      }
    }
    assert Contents(b) == Contents(a) + [item];
  }

  /**
   * Whatever the chunk capacities, a successful `add` keeps every stored
   * index stored and appends `item` to the represented sequence.
   */
  lemma AddKeepsCovers<T>(a: LargeArray<T>, item: T, initial: int)
    requires Covers(a) && AddWithInitial(a, item, initial).Success?
    ensures
      var b := AddWithInitial(a, item, initial).value;
      Covers(b) && Contents(b) == Contents(a) + [item]
  {
    var b := AddWithInitial(a, item, initial).value;
    var s := SubSize(a);
    var n := a.nextIndex;
    var k := ArrayIndex(n, s);
    var o := IndexInside(n, s);
    forall i: nat | i < n
      ensures Stored(b, i) && Cell(b, i) == Cell(a, i)
    {
      assert Stored(a, i);
      if ArrayIndex(i, s) == k {
        assert IndexInside(i, s) != o by {
          if IndexInside(i, s) == o {
            Injective(i, n, s);
          }
        }
      }
    }
    forall i: nat | i < n + 1
      ensures Stored(b, i)
    {
      if i < n {
        assert Stored(b, i);
      }
    }
    assert Contents(b) == Contents(a) + [item];
  }

  /**
   * The source's `add`: a success grows the size by one, `get(oldSize)` then
   * returns the item and every earlier `get` is unchanged. With
   * `memoryBlockSize` in [1, subArraySize] a valid container also fails only
   * when full and stays valid.
   */
  lemma AddAppends<T>(a: LargeArray<T>, item: T)
    requires Covers(a)
    ensures Add(a, item).Success? ==>
      var b := Add(a, item).value;
      && Covers(b) && Size(b) == Size(a) + 1
      && Get(b, a.nextIndex) == Success(item)
      && forall i :: 0 <= i < a.nextIndex ==> Get(b, i) == Get(a, i)
    ensures Valid(a) && 1 <= a.settings.memoryBlockSize <= SubSize(a) ==>
      && (Add(a, item).Success? <==> a.nextIndex < a.settings.maximumSize)
      && (Add(a, item).Success? ==> Valid(Add(a, item).value))
  {
    if Valid(a) && 1 <= a.settings.memoryBlockSize <= SubSize(a) {
      AddPreservesValid(a, item, a.settings.memoryBlockSize);
    }
    if Add(a, item).Success? {
      AddKeepsCovers(a, item, a.settings.memoryBlockSize);
      var b := Add(a, item).value;
      forall i | 0 <= i < a.nextIndex
        ensures Get(b, i) == Get(a, i)
      {
        assert Contents(b)[i] == Contents(a)[i];
      }
    }
  }

  /**
   * With `memoryBlockSize >= subArraySize` (unclipped chunks, as the source
   * allows), `add` on a roomy container fails only when the container is
   * full; otherwise it stays roomy, appends `item` and leaves the capacity of
   * every existing chunk unchanged.
   */
  lemma AddKeepsRoomy<T>(a: LargeArray<T>, item: T)
    requires Roomy(a) && a.settings.memoryBlockSize >= SubSize(a)
    ensures Add(a, item).Success? <==> a.nextIndex < a.settings.maximumSize
    ensures Add(a, item).Success? ==>
      var b := Add(a, item).value;
      Roomy(b) && Contents(b) == Contents(a) + [item]
    ensures Add(a, item).Success? ==>
      forall j :: 0 <= j < |a.chunks| ==> |Add(a, item).value.chunks[j]| == |a.chunks[j]|
  {
    if a.nextIndex < a.settings.maximumSize {
      RoomyAddSucceeds(a, item);
      AddKeepsCovers(a, item, a.settings.memoryBlockSize);
    }
  }

  /**
   * The case split behind `AddKeepsRoomy`: below the maximum, the `add`
   * succeeds, opens a chunk exactly when the new size needs one, and leaves
   * every chunk with at least `subArraySize` slots.
   */
  lemma RoomyAddSucceeds<T>(a: LargeArray<T>, item: T)
    requires Roomy(a) && a.settings.memoryBlockSize >= SubSize(a)
    requires a.nextIndex < a.settings.maximumSize
    ensures Add(a, item).Success?
    ensures |Add(a, item).value.chunks| == ChunkCount(a.nextIndex + 1, SubSize(a))
    ensures forall j :: 0 <= j < |Add(a, item).value.chunks| ==> SubSize(a) <= |Add(a, item).value.chunks[j]|
  {
    var s := SubSize(a);
    var n := a.nextIndex;
    var k := ArrayIndex(n, s);
    var o := IndexInside(n, s);
    if n == 0 {
      assert k == 0 && o == 0;
    } else {
      Successor(n - 1, s);
      if o == 0 {
        assert |a.chunks| == k;
      } else {
        assert |a.chunks| == k + 1 && o < s <= |a.chunks[k]|;
      }
    }
    var b := Add(a, item).value;
    assert |b.chunks[k]| >= s;
    forall j | 0 <= j < |b.chunks|
      ensures s <= |b.chunks[j]|
    {
      if j != k {
        assert b.chunks[j] == a.chunks[j];
      }
    }
  }

  /** With clipped initial chunks, `add` keeps the invariant for any `memoryBlockSize >= 1`. */
  lemma AddClippedAppends<T>(a: LargeArray<T>, item: T)
    requires Valid(a) && 1 <= a.settings.memoryBlockSize
    ensures AddClipped(a, item).Success? <==> a.nextIndex < a.settings.maximumSize
    ensures AddClipped(a, item).Success? ==>
      var b := AddClipped(a, item).value;
      Valid(b) && Contents(b) == Contents(a) + [item]
  {
    AddPreservesValid(a, item, Min(a.settings.memoryBlockSize, SubSize(a)));
  }

  /**
   * When `add` finds its target chunk existing and full, the chunk is resized
   * to `GrownCapacity`: the minimum of twice its capacity, the sub-array size
   * and the room left under the maximum size. Whenever such an `add`
   * succeeds, this capacity exceeds the write offset and is at most the
   * sub-array size (`AddTargetChunk` shows when it succeeds).
   */
  lemma AddGrowth<T>(a: LargeArray<T>, item: T, initial: int)
    requires AddWithInitial(a, item, initial).Success?
    requires ArrayIndex(a.nextIndex, SubSize(a)) < |a.chunks|
    requires IndexInside(a.nextIndex, SubSize(a)) >= |a.chunks[ArrayIndex(a.nextIndex, SubSize(a))]|
    ensures
      var k := ArrayIndex(a.nextIndex, SubSize(a));
      var c := |AddWithInitial(a, item, initial).value.chunks[k]|;
      && c == GrownCapacity(a, a.chunks, |a.chunks[k]|)
      && c > IndexInside(a.nextIndex, SubSize(a))
      && c <= SubSize(a)
  {
  }

  /** A chunk that is not full is written in place: its capacity does not change. */
  lemma AddNoGrowth<T>(a: LargeArray<T>, item: T, initial: int)
    requires AddWithInitial(a, item, initial).Success?
    requires ArrayIndex(a.nextIndex, SubSize(a)) < |a.chunks|
    requires IndexInside(a.nextIndex, SubSize(a)) < |a.chunks[ArrayIndex(a.nextIndex, SubSize(a))]|
    ensures
      var k := ArrayIndex(a.nextIndex, SubSize(a));
      |AddWithInitial(a, item, initial).value.chunks[k]| == |a.chunks[k]|
  {
  }

  /** A successful `set` is seen by `get` at its index and by no other index. */
  lemma SetUpdates<T>(a: LargeArray<T>, index: int, item: T)
    requires Covers(a) && 0 <= index < a.nextIndex
    ensures Set(a, index, item).Success?
    ensures
      var b := Set(a, index, item).value;
      && Covers(b) && Contents(b) == Contents(a)[index := item]
      && Get(b, index) == Success(item)
      && forall j :: 0 <= j < a.nextIndex && j != index ==> Get(b, j) == Get(a, j)
    ensures Valid(a) ==> Valid(Set(a, index, item).value)
    ensures Roomy(a) ==> Roomy(Set(a, index, item).value)
  {
    var s := SubSize(a);
    var b := Set(a, index, item).value;
    forall i: nat | i < a.nextIndex
      ensures Stored(b, i) && Cell(b, i) == if i == index then item else Cell(a, i)
    {
      assert Stored(a, i);
      if i != index && ArrayIndex(i, s) == ArrayIndex(index, s) {
        assert IndexInside(i, s) != IndexInside(index, s) by {
          if IndexInside(i, s) == IndexInside(index, s) {
            Injective(i, index, s);
          }
        }
      }
    }
    assert Contents(b) == Contents(a)[index := item];
  }

  /**
   * In any tiled container, trimming the last chunk down to `used` keeps every
   * element when `used` covers the elements of that chunk.
   */
  lemma TrimLastKeepsContents<T>(a: LargeArray<T>, used: nat, ratio: Ratio)
    requires Tiled(a)
    requires a.nextIndex > 0 ==> used >= LastUsed(a.nextIndex, SubSize(a))
    ensures Tiled(TrimLast(a, used, ratio)) && Contents(TrimLast(a, used, ratio)) == Contents(a)
  {
    var s := SubSize(a);
    var b := TrimLast(a, used, ratio);
    if a.chunks != [] && b != a {
      LastChunkHoldsLastIndex(a);
      var last := |a.chunks| - 1;
      forall i: nat | i < a.nextIndex
        ensures Stored(b, i) && Cell(b, i) == Cell(a, i)
      {
        assert Stored(a, i);
        if ArrayIndex(i, s) == last {
          OrdinalOrder(i, s, last);
          OrdinalOrder(a.nextIndex - 1, s, last);
          assert IndexInside(i, s) < LastUsed(a.nextIndex, s);
        }
      }
      assert Contents(b) == Contents(a);
    }
  }

  /** Trimming the last chunk of a valid container down to `used` keeps everything when `used` covers its elements. */
  lemma TrimLastPreserves<T>(a: LargeArray<T>, used: nat, ratio: Ratio)
    requires Valid(a)
    requires a.nextIndex > 0 ==> used >= LastUsed(a.nextIndex, SubSize(a))
    ensures Valid(TrimLast(a, used, ratio)) && Contents(TrimLast(a, used, ratio)) == Contents(a)
  {
    TrimLastKeepsContents(a, used, ratio);
    var b := TrimLast(a, used, ratio);
    forall j | 0 <= j < |b.chunks|
      ensures |b.chunks[j]| <= SubSize(a)
    {
      assert |b.chunks[j]| <= |a.chunks[j]|;
    }
  }

  /**
   * In any tiled container (a valid one, or a roomy one built with
   * `memoryBlockSize > subArraySize`), the source's `trimIfLessFilledThan`
   * keeps every element as long as the size is not a positive multiple of
   * the sub-array size.
   */
  lemma TrimIfLessFilledThanKeepsContents<T>(a: LargeArray<T>, ratio: Ratio)
    requires Tiled(a) && a.nextIndex % SubSize(a) != 0
    ensures Tiled(TrimIfLessFilledThan(a, ratio))
    ensures Contents(TrimIfLessFilledThan(a, ratio)) == Contents(a)
  {
    var s := SubSize(a);
    if a.nextIndex > 0 {
      Successor(a.nextIndex - 1, s);
    }
    TrimLastKeepsContents(a, IndexInside(a.nextIndex, s), ratio);
  }

  /**
   * The source's `trimIfLessFilledThan` keeps the invariant and every element
   * as long as the size is not a positive multiple of the sub-array size.
   */
  lemma TrimIfLessFilledThanPreserves<T>(a: LargeArray<T>, ratio: Ratio)
    requires Valid(a) && a.nextIndex % SubSize(a) != 0
    ensures Valid(TrimIfLessFilledThan(a, ratio))
    ensures Contents(TrimIfLessFilledThan(a, ratio)) == Contents(a)
  {
    var s := SubSize(a);
    if a.nextIndex > 0 {
      Successor(a.nextIndex - 1, s);
    }
    TrimLastPreserves(a, IndexInside(a.nextIndex, s), ratio);
  }

  /**
   * When the size is a positive multiple of the sub-array size, the source's
   * `trim()` shrinks the full last chunk of any tiled container (valid or
   * roomy) to capacity 0: the last element, which `get` returned before, can
   * no longer be read.
   */
  lemma TrimLosesFullLastChunk<T>(a: LargeArray<T>)
    requires Tiled(a) && a.nextIndex > 0 && a.nextIndex % SubSize(a) == 0
    ensures Get(a, a.nextIndex - 1).Success?
    ensures |Trim(a).chunks[|a.chunks| - 1]| == 0
    ensures !Covers(Trim(a))
    ensures Get(Trim(a), a.nextIndex - 1) == Failure(BackingFailure)
  {
    LastChunkHoldsLastIndex(a);
    var t := Trim(a);
    assert IndexInside(a.nextIndex, SubSize(a)) == 0;
    assert LessFilled(0, |a.chunks[|a.chunks| - 1]|, Maximum);
    assert !Stored(t, a.nextIndex - 1);
  }

  /** The corrected trim keeps the invariant and every element in all valid containers. */
  lemma TrimIfLessFilledThanCorrectedPreserves<T>(a: LargeArray<T>, ratio: Ratio)
    requires Valid(a)
    ensures Valid(TrimIfLessFilledThanCorrected(a, ratio))
    ensures Contents(TrimIfLessFilledThanCorrected(a, ratio)) == Contents(a)
  {
    TrimLastPreserves(a, LastUsed(a.nextIndex, SubSize(a)), ratio);
  }

  /**
   * The corrected trim replaces the last chunk exactly when its fill is below
   * the ratio, and `trim()` then leaves no slack: the last chunk's capacity
   * equals the number of elements it holds.
   */
  lemma TrimCorrectedFits<T>(a: LargeArray<T>, ratio: Ratio)
    requires Valid(a) && a.chunks != []
    ensures
      var last := |a.chunks| - 1;
      var used := LastUsed(a.nextIndex, SubSize(a));
      && (TrimIfLessFilledThanCorrected(a, ratio) != a <==> LessFilled(used, |a.chunks[last]|, ratio))
      && |TrimCorrected(a).chunks[last]| == used
  {
    LastChunkHoldsLastIndex(a);
    var last := |a.chunks| - 1;
    var used := LastUsed(a.nextIndex, SubSize(a));
    if LessFilled(used, |a.chunks[last]|, ratio) {
      assert |TrimIfLessFilledThanCorrected(a, ratio).chunks[last]| == used;
    }
  }

  /**
   * The source's `trim()` on a size that is not a multiple of the sub-array
   * size also leaves the last chunk with capacity equal to its element count.
   */
  lemma TrimFits<T>(a: LargeArray<T>)
    requires Valid(a) && a.chunks != [] && a.nextIndex % SubSize(a) != 0
    ensures |Trim(a).chunks[|a.chunks| - 1]| == IndexInside(a.nextIndex, SubSize(a))
  {
    LastChunkHoldsLastIndex(a);
    Successor(a.nextIndex - 1, SubSize(a));
  }
}

=== FILE: large_array_traces.dfy ===
/**
 * Sequences of container operations compared with a plain list: with the
 * clipped `add` and the corrected trim, appends, overwrites and trims act on
 * the represented sequence exactly as appending, updating and doing nothing
 * act on a list. The source's own `add` and `trim` do not always do so (see
 * `LargeArrayFindings` and `TrimLosesFullLastChunk`).
 */
module LargeArrayTraces {
  import opened Wrappers
  import opened LargeArrays
  import opened LargeArrayProofs

  /** One call on the container; a call that throws leaves the container as it was. */
  datatype Op<T> = Append(item: T) | Replace(index: int, item: T) | TrimBelow(ratio: Ratio)

  /** One step of the container with clipped initial chunks and the corrected trim. */
  function Step<T>(a: LargeArray<T>, op: Op<T>): LargeArray<T> {
    match op
    case Append(x) => (match AddClipped(a, x) case Success(b) => b case Failure(_) => a)
    case Replace(i, x) => (match Set(a, i, x) case Success(b) => b case Failure(_) => a)
    case TrimBelow(ratio) => TrimIfLessFilledThanCorrected(a, ratio)
  }

  function Run<T>(a: LargeArray<T>, ops: seq<Op<T>>): LargeArray<T>
    decreases |ops|
  {
    if ops == [] then a else Run(Step(a, ops[0]), ops[1..])
  }

  /** The same call on a plain list bounded by `maximumSize`. */
  function ListStep<T>(xs: seq<T>, op: Op<T>, maximumSize: int): seq<T> {
    match op
    case Append(x) => if |xs| < maximumSize then xs + [x] else xs
    case Replace(i, x) => if 0 <= i < |xs| then xs[i := x] else xs
    case TrimBelow(_) => xs
  }

  function ListRun<T>(xs: seq<T>, ops: seq<Op<T>>, maximumSize: int): seq<T>
    decreases |ops|
  {
    if ops == [] then xs else ListRun(ListStep(xs, ops[0], maximumSize), ops[1..], maximumSize)
  }

  lemma StepRefines<T>(a: LargeArray<T>, op: Op<T>)
    requires Valid(a) && 1 <= a.settings.memoryBlockSize
    ensures Valid(Step(a, op)) && Step(a, op).settings == a.settings
    ensures Contents(Step(a, op)) == ListStep(Contents(a), op, a.settings.maximumSize)
  {
    match op
    case Append(x) => AddClippedAppends(a, x);
    case Replace(i, x) => if 0 <= i < a.nextIndex { SetUpdates(a, i, x); }
    case TrimBelow(ratio) => TrimIfLessFilledThanCorrectedPreserves(a, ratio);
  }

  /**
   * Any sequence of calls on a valid container keeps it valid and changes its
   * sequence exactly as the same calls change a plain bounded list.
   */
  lemma {:induction false} RunRefines<T>(a: LargeArray<T>, ops: seq<Op<T>>)
    requires Valid(a) && 1 <= a.settings.memoryBlockSize
    ensures Valid(Run(a, ops))
    ensures Contents(Run(a, ops)) == ListRun(Contents(a), ops, a.settings.maximumSize)
    decreases |ops|
  {
    if ops != [] {
      StepRefines(a, ops[0]);
      RunRefines(Step(a, ops[0]), ops[1..]);
    }
  }

  /** Appends `items` one by one with the source's `add`, stopping at the first failure. */
  function AppendAll<T>(a: LargeArray<T>, items: seq<T>): Result<LargeArray<T>, Error>
    decreases |items|
  {
    if items == [] then Success(a)
    else
      match Add(a, items[0])
      case Success(b) => AppendAll(b, items[1..])
      case Failure(e) => Failure(e)
  }

  /**
   * The invariant that appends keep, chosen by the initial chunk capacity:
   * `Valid` when new chunks fit in a sub-array, `Roomy` when they are at least
   * as large as one.
   */
  predicate Appendable<T>(a: LargeArray<T>) {
    && 1 <= a.settings.memoryBlockSize
    && (if a.settings.memoryBlockSize <= SubSize(a) then Valid(a) else Roomy(a))
  }

  /**
   * Appending items that fit under the maximum size succeeds, the size grows
   * by the number of items, and the represented sequence gains the items.
   */
  lemma {:induction false} AppendAllRecords<T>(a: LargeArray<T>, items: seq<T>)
    requires Appendable(a) && a.nextIndex + |items| <= a.settings.maximumSize
    ensures AppendAll(a, items).Success?
    ensures Appendable(AppendAll(a, items).value) && AppendAll(a, items).value.settings == a.settings
    ensures Covers(AppendAll(a, items).value)
    ensures Contents(AppendAll(a, items).value) == Contents(a) + items
    decreases |items|
  {
    if items != [] {
      var b := AppendedOne(a, items[0]);
      assert AppendAll(a, items) == AppendAll(b, items[1..]);
      AppendAllRecords(b, items[1..]);
      assert Contents(a) + items == Contents(a) + [items[0]] + items[1..];
    }
  }

  /** One `add` below the maximum size: the successful result, still appendable, with the same settings and one more item. */
  lemma AppendedOne<T>(a: LargeArray<T>, item: T) returns (b: LargeArray<T>)
    requires Appendable(a) && a.nextIndex < a.settings.maximumSize
    ensures Add(a, item) == Success(b)
    ensures Appendable(b) && b.settings == a.settings && b.nextIndex == a.nextIndex + 1
    ensures Covers(a) && Covers(b) && Contents(b) == Contents(a) + [item]
  {
    if a.settings.memoryBlockSize <= SubSize(a) {
      AddPreservesValid(a, item, a.settings.memoryBlockSize);
    } else {
      AddKeepsRoomy(a, item);
    }
    b := Add(a, item).value;
  }

  /**
   * From an empty container (as `New` builds one) with any positive
   * `memoryBlockSize`, `n <= maximumSize` appends give size `n`, each index
   * reads back its item, and one further append fails with `ArrayFull` when
   * the maximum is reached.
   */
  lemma FillFromEmpty<T>(a: LargeArray<T>, items: seq<T>, extra: T)
    requires Valid(a) && IsEmpty(a)
    requires 1 <= a.settings.memoryBlockSize && |items| <= a.settings.maximumSize
    ensures AppendAll(a, items).Success?
    ensures Size(AppendAll(a, items).value) == |items|
    ensures forall i :: 0 <= i < |items| ==> Get(AppendAll(a, items).value, i) == Success(items[i])
    ensures |items| == a.settings.maximumSize ==> Add(AppendAll(a, items).value, extra) == Failure(ArrayFull)
  {
    assert Appendable(a);
    AppendAllRecords(a, items);
    var b := AppendAll(a, items).value;
    ReadsBack(b, items);
    if |items| == a.settings.maximumSize {
      FullRejects(b, extra);
    }
  }

  lemma ReadsBack<T>(b: LargeArray<T>, items: seq<T>)
    requires Covers(b) && Contents(b) == items
    ensures Size(b) == |items|
    ensures forall i :: 0 <= i < |items| ==> Get(b, i) == Success(items[i])
  {
  }

  lemma FullRejects<T>(b: LargeArray<T>, extra: T)
    requires b.nextIndex >= b.settings.maximumSize
    ensures Add(b, extra) == Failure(ArrayFull)
  {
  }
}

=== FILE: standard_configuration.dfy ===
/**
 * `StandardConfiguration`: dot-notation lookup in a nested string-keyed tree,
 * and the configurable values read through it.
 */
module StandardConfiguration {
  import opened Wrappers
  import opened DottedKeys

  /**
   * A configuration value: a scalar leaf or a nested table. A key mapped to
   * JSON null is indistinguishable from a missing key and is simply absent.
   */
  datatype Val = Leaf(scalar: string) | Node(entries: map<string, Val>)

  /** The configuration: its top-level table. */
  datatype Configuration = Configuration(data: map<string, Val>)

  /** The first `j` segments of `key`, joined. */
  function Prefix(key: string, j: nat): string
    requires j <= |Split(key)|
  {
    Join(Split(key)[..j])
  }

  /** The segments of `key` after the first `j`, joined. */
  function Suffix(key: string, j: nat): string
    requires j <= |Split(key)|
  {
    Join(Split(key)[j..])
  }

  /**
   * `resolve(key, context)`: the empty key names the context itself;
   * otherwise candidate prefixes are tried longest first.
   */
  function Resolve(key: string, context: map<string, Val>): (r: Option<Val>)
    ensures key == "" ==> r == Some(Node(context))
    decreases |key|, 1
  {
    if key == "" then Some(Node(context))
    else Scan(key, Split(key), [], context)
  }

  /**
   * One pass of the loop of `resolve`: `root` holds the segments still joined
   * into the candidate key, `child` the segments already moved to the suffix.
   * A sub-table hit recurses on the suffix, a leaf hit is returned, a miss
   * moves the last root segment to the front of the suffix.
   */
  function Scan(key: string, root: seq<string>, child: seq<string>, context: map<string, Val>): Option<Val>
    requires key != "" && root + child == Split(key)
    decreases |key|, 0, |root|
  {
    if root == [] then None
    else
      var current := Join(root);
      if current in context && context[current].Node? then
        assert child == Split(key)[|root|..];
        SuffixShorter(key, |root|);
        Resolve(Join(child), context[current].entries)
      else if current in context then Some(context[current])
      else
        assert root[..|root| - 1] + ([root[|root| - 1]] + child) == root + child;
        Scan(key, root[..|root| - 1], [root[|root| - 1]] + child, context)
  }

  /** What `resolve` returns once the candidate made of the first `j` segments is found. */
  function Hit(key: string, j: nat, context: map<string, Val>): Option<Val>
    requires 1 <= j <= |Split(key)| && Prefix(key, j) in context
  {
    match context[Prefix(key, j)]
    case Leaf(s) => Some(Leaf(s))
    case Node(m) => Resolve(Suffix(key, j), m)
  }

  /**
   * One pass of the loop over the first `i` segments: a present candidate
   * decides the result through `Hit`.
   */
  lemma ScanHit(key: string, i: nat, context: map<string, Val>)
    requires key != "" && 1 <= i <= |Split(key)|
    requires Prefix(key, i) in context
    ensures Split(key)[..i] + Split(key)[i..] == Split(key)
    ensures Scan(key, Split(key)[..i], Split(key)[i..], context) == Hit(key, i, context)
  {
    var parts := Split(key);
    assert parts[..i] + parts[i..] == parts;
  }

  /**
   * One pass of the loop over the first `i` segments: an absent candidate
   * moves on to the candidate made of the first `i - 1` segments.
   */
  lemma ScanMiss(key: string, parts: seq<string>, i: nat, context: map<string, Val>)
    requires key != "" && parts == Split(key) && 1 <= i <= |parts|
    requires Join(parts[..i]) !in context
    ensures parts[..i] + parts[i..] == Split(key)
    ensures parts[..i - 1] + parts[i - 1..] == Split(key)
    ensures Scan(key, parts[..i], parts[i..], context) == Scan(key, parts[..i - 1], parts[i - 1..], context)
  {
    MoveLastSegment(parts, i);
  }

  /** Moving the last of the first `i` segments to the front of the rest. */
  lemma MoveLastSegment(parts: seq<string>, i: nat)
    requires 1 <= i <= |parts|
    ensures parts[..i] + parts[i..] == parts
    ensures parts[..i - 1] + parts[i - 1..] == parts
    ensures |parts[..i]| == i && parts[..i][..i - 1] == parts[..i - 1]
    ensures [parts[..i][i - 1]] + parts[i..] == parts[i - 1..]
  {
    assert parts[..i] + parts[i..] == parts;
    assert parts[..i - 1] + parts[i - 1..] == parts;
    assert [parts[..i][i - 1]] + parts[i..] == parts[i - 1..];
  }

  lemma {:induction false} ScanLongestPrefix(key: string, i: nat, context: map<string, Val>)
    requires key != "" && i <= |Split(key)|
    ensures Split(key)[..i] + Split(key)[i..] == Split(key)
    ensures (forall j :: 1 <= j <= i ==> Prefix(key, j) !in context) ==>
      Scan(key, Split(key)[..i], Split(key)[i..], context) == None
    ensures forall j :: 1 <= j <= i && Prefix(key, j) in context
                        && (forall j' :: j < j' <= i ==> Prefix(key, j') !in context) ==>
      Scan(key, Split(key)[..i], Split(key)[i..], context) == Hit(key, j, context)
    decreases i
  {
    var parts := Split(key);
    assert parts[..i] + parts[i..] == parts;
    if i == 0 {
      assert parts[..0] == [];
    } else {
      if Prefix(key, i) in context {
        ScanHit(key, i, context);
      } else {
        ScanMiss(key, parts, i, context);
        ScanLongestPrefix(key, i - 1, context);
      }
    }
  }

  /**
   * The lookup specification: a non-empty key resolves through the longest
   * candidate prefix present in the table. No candidate present gives none;
   * a leaf is returned as is; a sub-table is searched with the remaining
   * suffix, and shorter prefixes are never tried, even when that search finds
   * nothing.
   */
  lemma ResolveLongestPrefix(key: string, context: map<string, Val>)
    requires key != ""
    ensures (forall j :: 1 <= j <= |Split(key)| ==> Prefix(key, j) !in context) ==>
      Resolve(key, context) == None
    ensures forall j :: 1 <= j <= |Split(key)| && Prefix(key, j) in context
                        && (forall j' :: j < j' <= |Split(key)| ==> Prefix(key, j') !in context) ==>
      Resolve(key, context) == Hit(key, j, context)
  {
    var parts := Split(key);
    ScanLongestPrefix(key, |parts|, context);
    assert parts[..|parts|] == parts && parts[|parts|..] == [];
  }

  /** A key whose whole dotted form names a sub-table resolves to that sub-table. */
  lemma WholeKeySubTable(key: string, context: map<string, Val>)
    requires key != "" && Split(key) != []
    requires Join(Split(key)) in context && context[Join(Split(key))].Node?
    ensures Resolve(key, context) == Some(context[Join(Split(key))])
  {
    var parts := Split(key);
    assert parts[..|parts|] == parts && parts[|parts|..] == [];
    ScanHit(key, |parts|, context);
    assert Suffix(key, |parts|) == "";
  }

  /**
   * A configurable value: the key it reads, the transformed default, and the
   * transform. A transform result of `None` stands for a Java `null`.
   */
  datatype Configurable<T> = Configurable(key: string, defaultValue: Option<T>, transform: Val -> Option<T>)

  /** The `StandardConfigurable` constructor: the default is transformed once, up front. */
  function NewConfigurable<T>(key: string, default: Option<Val>, transform: Val -> Option<T>): (c: Configurable<T>)
    ensures c.key == key
    ensures default.None? ==> c.defaultValue == None
    ensures default.Some? ==> c.defaultValue == transform(default.value)
  {
    Configurable(key, if default.Some? then transform(default.value) else None, transform)
  }

  /**
   * `value()`: the transformed resolved value when the key resolves and the
   * transform yields something; the transformed default otherwise.
   */
  function Value<T>(c: Configurable<T>, config: Configuration): (r: Option<T>)
    ensures Resolve(c.key, config.data).None? ==> r == c.defaultValue
    ensures Resolve(c.key, config.data).Some? ==>
      var t := c.transform(Resolve(c.key, config.data).value);
      r == if t.Some? then t else c.defaultValue
  {
    match Resolve(c.key, config.data)
    case Some(found) => (match c.transform(found) case Some(t) => Some(t) case None => c.defaultValue)
    case None => c.defaultValue
  }

  /**
   * `value()` through the longest-prefix lookup: when the longest candidate
   * present in the table is a leaf, the value is the transformed leaf, or the
   * transformed default when the transform yields nothing.
   */
  lemma ValueOfLongestLeaf<T>(c: Configurable<T>, config: Configuration, j: nat)
    requires c.key != "" && 1 <= j <= |Split(c.key)|
    requires Prefix(c.key, j) in config.data && config.data[Prefix(c.key, j)].Leaf?
    requires forall j' :: j < j' <= |Split(c.key)| ==> Prefix(c.key, j') !in config.data
    ensures Value(c, config) == if c.transform(config.data[Prefix(c.key, j)]).Some?
      then c.transform(config.data[Prefix(c.key, j)]) else c.defaultValue
  {
    ResolveLongestPrefix(c.key, config.data);
  }

  /** The identity transform of the untyped `get` overloads. */
  function Identity(v: Val): Option<Val> {
    Some(v)
  }

  /**
   * `get(key, defaultValue)` with the identity transform reads the resolved
   * value, or the default when the key does not resolve; `get(key)` reads the
   * resolved value or nothing.
   */
  lemma IdentityValue(key: string, default: Option<Val>, config: Configuration)
    ensures Value(NewConfigurable(key, default, Identity), config) ==
      match Resolve(key, config.data) case Some(v) => Some(v) case None => default
  {
  }
}

=== FILE: wrappers.dfy ===
/** The optional and either-or result types shared by the container and the configuration lookup. */
module Wrappers {

  /** A value that may be absent; stands for a Java reference that may be null. */
  datatype Option<+T> = None | Some(value: T)

  /** Either a successful value or the error a Java method would have thrown. */
  datatype Result<+R, +E> = Success(value: R) | Failure(error: E)
}
